=== FILE: README.md ===
# source-licenser, modelled in Dafny

source-licenser walks a source tree and keeps a license annotation on every
file a configured pattern matches. This project models its core as pure
functions over immutable data and proves properties of them:

- **License block** (`src/actions/textAction.js`, module `TextAction`, helpers
  in `Lines`). The header and footer actions validate their settings. They
  split the start marker, the license text and the end marker into lines and
  trim each line. They drop one blank last license line and put the line
  prefix before every license line. Each part gets a blank last line, and
  the parts are joined with the platform line terminator.
- **Action base** (`src/actions/action.js`, module `Action`). It records the
  id and the default license. It builds the validation message, which says
  "property" or "properties" depending on the key count, and resolves the
  license with `??`.
- **JSON action** (`src/actions/json.js`, modules `Json`, `JsonMerge`). The
  force merge is lodash `_.merge`. The defaults merge is `_.mergeWith` with a
  keep-existing customizer. A file is rewritten only when the document
  changed.
- **File selection** (`src/index.js`, module `FileSelection`). Covered:
  - loading actions, including the `true` to `{}` normalization;
  - the `checkInit` gate;
  - `getFileSpec`, which picks the first suffix pattern;
  - `ignore`, a substring test;
  - the recursive walk over an abstract directory tree, with the files it
    hands to the actions and the count it logs.

Most operations are also proved against a second, independent statement:
- The walk is proved equal to a flat definition: the leaves of the tree
  filtered by visibility (`LoopAgrees`).
- Splitting and joining are proved to be inverses.
- The merges are proved key by key against lookups, idempotent, and a copy
  of the source where nothing is there to merge into.
- The built block is proved to split back into its own lines.

A few small operations are stated only by their own contracts: `??`
(`Action.Coalesce`, `Action.GetLicense`), `Action.Init` and
`FileSelection.NormalizeSetting`.

Inputs the source reads from the outside are parameters:
- the platform line terminator `os.EOL` (`eol`);
- the parsed JSON document;
- the directory tree;
- the keys of the action modules that `start` loads.

Outcomes:
- Errors an action throws are `Failure` values carrying an `Action.Error`.
- The error the walk throws on an entry that is neither a file nor a
  directory is recorded as that entry's path in `Walk.failedAt`.
- A JavaScript `TypeError` from reading the last element of an empty list is
  `None` or a `TypeError` failure.

## Behaviour of the code worth knowing

The model follows the code in each case:

- **Markers.** Only the type of the markers is checked (lines 12-14): an empty
  string is accepted as a marker.
- **Blank last lines.** Only one trailing blank license line is removed (lines
  43-48): `"MIT\n\n"` keeps one blank line before the prefix is applied
  (`TextAction.OnlyOneBlankLineStripped`).
- **Blank license.** A license that is blank and has no line break makes `init`
  throw. `stripLastLineIfBlank` empties the list and `ensureBlankLastLine`
  then reads a missing element (`TextAction.InitFailsOnBlankLicense`).
- **Missing line prefix.** See Findings.
- **Defaults merge.** It is not recursive. The customizer returns every
  defined existing value, so lodash never descends, and a present key keeps
  its value wholesale.
- **The logged count.** It counts the files a spec matched, whether or not an
  action changed them (index.js:135).
- **Missing handler.** `checkInit` reports it with `process.exit(0)`, a success
  status (see Findings).

## Model

| member | source | states |
|---|---|---|
| Lines.TrimEnd | src/actions/textAction.js:20 | `trimEnd` returns a prefix of the line with no trailing whitespace, and only whitespace was removed |
| Lines.BlankIffAllWhitespace | src/actions/textAction.js:44 | a line is blank (`trimEnd() === ''`) exactly when every character is JavaScript whitespace |
| Lines.GetLines | src/actions/textAction.js:39-41 | splitting gives one more line than there are breaks, so never an empty list; no line holds CR or LF; CR LF counts as one break |
| Lines.GetLinesOfJoin | src/actions/textAction.js:40 | splitting a join made with a platform terminator gives back the lines, when they hold no break |
| Lines.JoinOfGetLines | src/actions/textAction.js:39-41 | joining the lines of a text without CR with LF gives back the text |
| Lines.GetLinesOfTerminate | src/actions/textAction.js:57-59 | splitting lines that are each followed by the terminator gives them back plus one empty line |
| Lines.JoinWithEmptyLast | src/actions/textAction.js:57-59 | `join` of a list whose last line is empty puts the terminator after every other line |
| Lines.StripLastLineIfBlank | src/actions/textAction.js:43-48 | fails on an empty list; otherwise removes exactly the last line when it is blank and never more than one line |
| Lines.EnsureBlankLastLine | src/actions/textAction.js:50-55 | fails on an empty list; otherwise keeps the list when its last line is blank and appends exactly one empty line when it is not; the result ends blank |
| Lines.EnsureBlankLastLineIdempotent | src/actions/textAction.js:50-55 | ensuring a blank last line twice is the same as once |
| Lines.JoinEnsured | src/actions/textAction.js:57-59 | for trimmed lines, joining after `ensureBlankLastLine` terminates every line once a blank last line is dropped |
| Lines.TerminateEmptyOrEndsWithEol | src/actions/textAction.js:57-59 | a joined segment is empty or ends with the terminator |
| TextAction.TrimmedLinesHaveNoBreak | src/actions/textAction.js:20 | trimmed marker lines keep no break and have no trailing whitespace |
| TextAction.PrefixedLinesHaveNoBreak | src/actions/textAction.js:30 | prefixed license lines hold no break when the prefix holds none |
| TextAction.MarkerSegment | src/actions/textAction.js:20-26 | a marker segment is the marker's trimmed lines, minus a blank last line, each followed by the terminator |
| TextAction.MarkerSegmentShape | src/actions/textAction.js:20-26 | each marker segment is empty or ends with the terminator, and none of its lines has trailing whitespace |
| TextAction.StrippedEmptyIff | src/actions/textAction.js:28-29 | stripping empties the license lines exactly for a blank license without a line break |
| TextAction.LicenseLines | src/actions/textAction.js:28-31 | the license lines fail exactly for a blank license without a line break; otherwise they are non-empty and trimmed |
| TextAction.Construct | src/actions/textAction.js:17-32 | the built action records the id, default license, license, defaulted prefix and both marker segments; it succeeds exactly when the resolved license is a string that is not blank-without-break, and fails with a TypeError otherwise |
| TextAction.Init | src/actions/textAction.js:10-33 | missing settings or a non-string marker give the validation error naming `startBlock` and `endBlock`, before anything is built; otherwise the block is built with the raw `linePrefix` converted to a string |
| TextAction.InitIntended | src/actions/textAction.js:17 | the same `init` with the defaulted prefix of line 17 used for the license lines |
| TextAction.InitIntendedDefaultsPrefix | src/actions/textAction.js:17 | the intended `init` uses the empty prefix for a missing or null `linePrefix` and agrees with `init` as written otherwise |
| TextAction.BlockShape | src/actions/textAction.js:32 | the full block is the start marker lines, the prefixed license lines and the end marker lines, in that order, each followed by the terminator |
| TextAction.BlockLinesAreClean | src/actions/textAction.js:20-31 | no line of the block has trailing whitespace, and no line holds a break when the prefix holds none |
| TextAction.BlockRoundTrip | src/actions/textAction.js:31-32 | only the terminators separate lines: splitting the block gives back its lines plus one empty line |
| TextAction.InitRejectsNonStringMarkers | src/actions/textAction.js:12-16 | the validation error reads "Action '<id>' expects properties 'startBlock', 'endBlock'" |
| TextAction.InitFailsOnBlankLicense | src/actions/textAction.js:28-31 | a license of three spaces makes `init` fail with a TypeError |
| TextAction.OnlyOneBlankLineStripped | src/actions/textAction.js:43-48 | of "MIT" followed by two line breaks only one blank line is stripped |
| TextAction.OneLineBlock | src/actions/textAction.js:20-32 | one-line markers and a one-line license build start, eol, prefix and license, eol, end, eol |
| TextAction.CommentBlockExample | src/actions/textAction.js:10-33 | markers `/*` and ` */`, prefix ` * ` and license MIT build the three-line comment with no doubled blank line |
| TextAction.MissingPrefixWritesUndefined | src/actions/textAction.js:30 | as written, settings without `linePrefix` build the license line "undefinedMIT" |
| TextAction.MissingPrefixIntended | src/actions/textAction.js:17 | with the defaulted prefix the same settings build the license line "MIT" |
| Action.Init | src/actions/action.js:6-9 | `init` records the id and the default license and leaves the license alone |
| Action.PropertyWord | src/actions/action.js:11 | the message says "property" for at most one key and "properties" for two or more |
| Action.ValidationMessageOneKey | src/actions/action.js:11 | with one key the message is "Action '<id>' expects property '<key>'" |
| Action.ValidationMessageTwoKeys | src/actions/action.js:11 | with two keys the message names both, in order, quoted and separated by `', '` |
| Action.ValidationMessage | src/actions/action.js:11 | the message names the id, says "property" for one key and "properties" for more, then lists every key in the given order, each quoted, separated by a comma and a space; with no key it ends in an empty pair of quotes |
| Action.ThrowValidationError | src/actions/action.js:10-12 | the validation error never returns normally; it always fails with the validation message |
| Action.Coalesce | src/actions/action.js:14 | `??` keeps a value that is neither null nor undefined and takes the fallback otherwise |
| Action.GetLicense | src/actions/action.js:13-15 | the action's own license unless it is null or undefined, else the default license |
| JsonMerge.Merge | src/actions/json.js:26 | a source scalar (null included) overwrites; a source array gives an array; a source object gives an object, or leaves a target array in place |
| JsonMerge.ForceMerge | src/actions/json.js:25-27 | an object or `null` document becomes an object that keeps the document's keys first and unique, the new forced keys after them in `force` order; any other document is returned as it is |
| JsonMerge.MergeItems | src/actions/json.js:26 | arrays merge index by index: the length is the larger one, source positions hold the merged values, the rest keep the target's |
| JsonMerge.MergeMembersSpec | src/actions/json.js:26 | object merge keeps the target's keys in order and appends the source's new keys in source order, keys stay unique, source keys hold the merged value and the others keep the target's |
| JsonMerge.ForceMergeSpec | src/actions/json.js:25-27 | the force merge keeps every document key absent from `force` with its value, and gives each forced key the merge of both values |
| JsonMerge.ForceMergeKeepsNestedKeys | src/actions/json.js:26 | where both sides hold objects, nested document keys that `force` does not mention survive |
| JsonMerge.ForceScalarWins | src/actions/json.js:25-27 | every scalar of `force` is found at the same key path after the merge, where no array stands in the way |
| JsonMerge.MergeWellFormed | src/actions/json.js:26 | merging keeps every object's keys unique at every depth |
| JsonMerge.MergeIdempotent | src/actions/json.js:26 | merging the same source a second time changes nothing |
| JsonMerge.MergeCopies | src/actions/json.js:26 | a source object or array reaching a missing or scalar slot is copied whole, at every depth |
| JsonMerge.ForceAddsNewKeys | src/actions/json.js:26 | a forced key the document lacks arrives holding exactly the forced value |
| JsonMerge.DefaultsMerge | src/actions/json.js:28-32 | an object or `null` document becomes an object that keeps the document's keys first and unique, the new default keys after them; any other document is returned as it is |
| JsonMerge.DefaultMembersSpec | src/actions/json.js:28-32 | the defaults merge keeps the document's keys in order and appends the new default keys; a present key keeps its value and a missing key gets the default |
| JsonMerge.DefaultsKeepPresent | src/actions/json.js:29-31 | a present key keeps its value, whatever it is: null, false, 0 or a partial object |
| JsonMerge.DefaultsAddMissing | src/actions/json.js:30 | every defaults key absent from the document is added with the default value, after the existing keys |
| JsonMerge.Transform | src/actions/json.js:25-32 | neither merge removes a key: an object document keeps its keys first, in order, and unique; with neither setting, and for a string, number, boolean or array document, the document is unchanged |
| JsonMerge.TransformIdempotent | src/actions/json.js:25-32 | force plus defaults applied to its own result changes nothing |
| JsonMerge.Init | src/actions/json.js:12-15 | `init` records the id "json" and the default license and keeps the settings |
| JsonMerge.Apply | src/actions/json.js:22-43 | `apply` reports a modification and writes exactly when the merged document differs from the original, and writes the merged document |
| JsonMerge.ApplyTwice | src/actions/json.js:36-39 | a second run on the written file takes the up-to-date branch: no modification, no write |
| JsonMergeExamples.ForceExample | src/actions/json.js:25-27 | `{"a":1,"b":{"c":2}}` forced with `{"b":{"c":3}}` gives `{"a":1,"b":{"c":3}}`, then nothing more |
| JsonMergeExamples.DefaultsExample | src/actions/json.js:28-32 | `{"a":1}` with defaults `{"a":2,"b":3}` gives `{"a":1,"b":3}` |
| JsonMergeExamples.NullExample | src/actions/json.js:25-31 | a present null survives the defaults merge, and a forced null overwrites a present value |
| JsonMergeExamples.ArrayReplacesScalar | src/actions/json.js:26 | a forced one-element array replaces a number |
| JsonMergeExamples.ArrayExample | src/actions/json.js:26 | a forced one-element array overwrites only the first element of a two-element array |
| FileSelection.IndexOf | src/index.js:120 | `indexOf` is the first occurrence, and -1 exactly when the text does not occur |
| FileSelection.Ignore | src/index.js:118-123 | a path is ignored exactly when some ignore entry occurs in it |
| FileSelection.IgnoreExtremes | src/index.js:118-123 | with no ignore entries nothing is ignored; an empty entry ignores every path |
| FileSelection.GetFileSpec | src/index.js:106-112 | the chosen spec is the first in configuration order whose pattern ends the path; nothing is chosen exactly when no pattern does |
| FileSelection.FirstSpecWins | src/index.js:106-112 | a matching spec is never chosen over an earlier matching one |
| FileSelection.NormalizeSetting | src/index.js:78-80 | a `true` setting becomes an empty object and every other value is unchanged |
| FileSelection.LoadAction | src/index.js:71-85 | loading one action keeps every pattern and entry order; an entry named after the action gets its setting normalized and is prepared when that setting is an object or an array, the only values that can carry the attached handler; every other entry is unchanged |
| FileSelection.LoadActions | src/index.js:58-61 | loading the actions one after the other keeps every pattern, the number of actions of each spec and their keys |
| FileSelection.LoadActionsPrepares | src/index.js:58-61 | after loading, an item is prepared exactly when it was, or its key was loaded and its normalized setting is an object or an array; exactly the loaded settings are normalized |
| FileSelection.CheckInit | src/index.js:88-98 | the gate passes exactly when every action item of every spec is prepared, and otherwise names an unprepared one |
| FileSelection.Start | src/index.js:58-63 | the run halts exactly when some item is unprepared after loading, and otherwise walks the tree with the loaded specs |
| FileSelection.StartGate | src/index.js:62-63 | from fresh configuration, the walk starts exactly when every configured action key is one of the loaded actions and every setting is `true`, an object or an array |
| FileSelection.FalseSettingHalts | src/index.js:77-94 | a loaded `header: false` leaves no handler, so the run halts; `header: true` becomes `{}` and the run walks |
| FileSelection.HaltedIgnoresTree | src/index.js:62-63 | a halted run never looks at the tree |
| FileSelection.HandleMatchingFile | src/index.js:130-136 | a matched file runs every action of its spec, in the spec's order, and nothing else |
| FileSelection.Loop | src/index.js:145-162 | every handled file has a spec and runs exactly that spec's actions, in order |
| FileSelection.VisitEntry | src/index.js:149-160 | the same for a single entry of a directory |
| FileSelection.HiddenBelow | src/index.js:150-153 | below an ignored directory nothing is handled and nothing stops the walk |
| FileSelection.LoopAgrees | src/index.js:145-162 | the walk handles exactly the visible files a spec matches, in tree order, up to the first visible entry that is neither file nor directory, and stops there with that path |
| FileSelection.VisitEntryAgrees | src/index.js:149-160 | the same for a single entry: skipped when ignored, recursed into when a directory, handled when a matched file, an error otherwise |
| FileSelection.WalkCount | src/index.js:135 | when the walk completes, the count is the number of visible files a spec matches, whether or not an action changes them |
| FileSelection.ExitCode | src/index.js:94 | as written, a walk exits with status 0 exactly when it completed |
| FileSelection.ExitCodeIntended | src/index.js:87-98 | with a missing handler reported as an error, status 0 means exactly that the walk completed |
| FileSelection.HaltLooksLikeSuccess | src/index.js:94 | as written, a run stopped by the gate exits with the same status 0 as a completed walk |

## Left out

- File-system I/O is not modelled: reading and writing files, `readdir` and `stat`. Contents, parsed documents and the tree are inputs.
- `JSON.parse` and its errors, and the byte layout of `JSON.stringify`, are not modelled. Documents are given parsed, and the serialization comparison is structural equality, key order included.
- JSON numbers are integers. Floating point and the ordering of integer-like keys that JavaScript objects impose are not modelled.
- The `sortPackage` step uses the `sort-package-json` library, whose code is not part of this model.
- JsonMerge.Merge: a source object merged into a target array leaves the array as it is. lodash writes the keys onto the array. Serialization drops them unless they look like indices, and that case is not modelled.
- JsonMerge.Merge: a source array merged into an array-like object (one with a numeric `length`) is copied as into a missing slot. lodash would copy the object's indexed values first.
- JsonMerge.DefaultMember: lodash reads the existing value with `object[key]`, which sees inherited properties. A default for a key such as `toString`, `valueOf` or `hasOwnProperty` then finds a defined value and is never added. The model adds it.
- JsonMerge.DefaultMember: lodash's `safeGet` reads `undefined` for the key `__proto__`, on the source side as well as the document side. Both merges therefore drop an object or array under that key, and only a scalar default overwrites a present value. The model treats `__proto__` like any other key.
- JsonMerge.DefaultsMerge: an array document is returned as it is. lodash writes the default keys onto the array, and index-like keys among them change its serialization.
- JsonMerge.ForceMerge: a string, number, boolean or array document is returned as it is. lodash wraps it with `Object()`, and the properties it adds are not serialized, except index-like keys on an array.
- lodash mutates the document in place. The model returns a new value.
- The header, footer and sibling-file actions are not part of this model. `textAction.apply` only throws "Not implemented" and is not modelled.
- `prepare` on each action is not part of this model. It is stood for by the `prepared` flag. It is assumed to attach the handler to every object or array setting, and to none of the others.
- FileSelection.LoadAction: a `null` setting (and, in strict mode, a `false`, number or string one) may make `prepare` throw a TypeError when it assigns the handler. The model lets the load finish and halts at the gate instead.
- The `key` values of the four action modules loaded by `start` are not part of this model. `Start` takes them as a list.
- FileSelection.CheckInit: a `false` or `null` item is treated like any other unprepared item. The source reads `actionMethod` on it and may throw a TypeError instead of logging.
- Configuration loading, templating, the logger, timing and the final log line are not modelled. `process.exit` appears only as the status `ExitCode` names.
- The promise `actionMethod` returns is not awaited (index.js:133). Its failures and the concurrency it allows are not modelled.
- `path.resolve` is modelled as `dir + "/" + name`, with no normalization.
- Symbolic links are not modelled. `stat` follows them, and `loop` builds a longer path on every pass through a directory link. With a link cycle, each file below the link is handled once per level. After about 40 hops `readdir` or `stat` fails with ELOOP or ENAMETOOLONG, and that error aborts the run. The abstract tree has no links.
- `os.EOL` is a parameter. Round-trip lemmas require it to be LF or CR LF.
- Error texts of JavaScript TypeErrors are descriptive strings, not the engine's messages.

## Findings

| source | as written | input that shows it | evidently intended | confidence | as-written member | corrected member |
|---|---|---|---|---|---|---|
| src/actions/textAction.js:30 | license lines are prefixed with the raw `actionSettings.linePrefix`, which `+` turns into "undefined" when absent | settings `/*`, ` */`, no `linePrefix`, license MIT give the license line "undefinedMIT" | the prefix defaulted to `''` on line 17, giving "MIT" | high; not executed | TextAction.MissingPrefixWritesUndefined | TextAction.InitIntended |
| src/index.js:94 | `checkInit` ends the process with `process.exit(0)` after logging an error | a spec naming an action no loaded module has halts the run with status 0, like a completed walk | a non-zero status, as the comment "throw an error" on line 87 says | medium; not executed | FileSelection.HaltLooksLikeSuccess | FileSelection.ExitCodeIntended |

=== FILE: action.dfy ===
/**
 * The shared base of every action (src/actions/action.js): the recorded id and
 * default license, the validation error and license resolution.
 */
module Action {
  import opened Wrappers
  import Lines

  /**
   * A JavaScript value as a setting can hold it. `Other` is any other value
   * (number, boolean, object); `text` is what `String(v)` gives for it.
   */
  datatype JsValue = Undefined | Null | Str(s: string) | Other(text: string) {
    predicate IsNullish() {
      Undefined? || Null?
    }
  }

  /** The string `+` converts a value to when the other operand is a string. */
  function ToJsString(v: JsValue): string
  {
    match v
    case Undefined => "undefined"
    case Null => "null"
    case Str(s) => s
    case Other(text) => text
  }

  /** `v ?? fallback`. */
  function Coalesce(v: JsValue, fallback: JsValue): (r: JsValue)
    ensures !v.IsNullish() ==> r == v
    ensures v.IsNullish() ==> r == fallback
  {
    if v.IsNullish() then fallback else v
  }

  /** An error an action throws. */
  datatype Error = ValidationError(message: string) | TypeError(reason: string)

  /** The state every action keeps on itself. */
  datatype ActionBase = ActionBase(id: string, defaultLicense: JsValue, license: JsValue)

  /** `init`: records the id and the default license and leaves `license` alone. */
  function Init(a: ActionBase, id: string, defaultLicense: JsValue): (r: ActionBase)
    ensures r.id == id && r.defaultLicense == defaultLicense
    ensures r.license == a.license
  {
    a.(id := id, defaultLicense := defaultLicense)
  }

  /** "property" for at most one key, "properties" for two or more. */
  function PropertyWord(keyCount: nat): (r: string)
    ensures keyCount <= 1 ==> r == "property"
    ensures keyCount >= 2 ==> r == "properties"
  {
    "propert" + (if keyCount > 1 then "ies" else "y")
  }

  /**
   * The message of `throwValidationError`: it names the id and every key in
   * the given order, each between single quotes and separated by a comma and
   * a space. With no key it ends in an empty pair of quotes.
   */
  function ValidationMessage(id: string, keys: seq<string>): (r: string)
    ensures |keys| > 0 ==> r == "Action '" + id + "' expects " + PropertyWord(|keys|) + " " + Lines.Join(QuoteAll(keys), ", ")
    ensures |keys| == 0 ==> r == "Action '" + id + "' expects property ''"
  {
    var head := "Action '" + id + "' expects " + PropertyWord(|keys|);
    KeyList(head, keys);
    head + " '" + Lines.Join(keys, "', '") + "'"
  }

  /** The quoted key list: the joined, quoted keys, or an empty pair of quotes. */
  lemma KeyList(head: string, keys: seq<string>)
    ensures |keys| == 0 ==> head + " '" + Lines.Join(keys, "', '") + "'" == head + " ''"
    ensures |keys| > 0 ==> head + " '" + Lines.Join(keys, "', '") + "'" == head + " " + Lines.Join(QuoteAll(keys), ", ")
  {
    if |keys| == 0 {
      EmptyKeyList(head);
    } else {
      QuotedKeyList(head, keys);
    }
  }

  lemma EmptyKeyList(head: string)
    ensures head + " '" + Lines.Join([], "', '") + "'" == head + " ''"
  {
    assert Lines.Join([], "', '") == "";
  }

  lemma QuotedKeyList(head: string, keys: seq<string>)
    requires |keys| > 0
    ensures head + " '" + Lines.Join(keys, "', '") + "'" == head + " " + Lines.Join(QuoteAll(keys), ", ")
  {
    QuotedJoin(keys);
    SplitQuote(head, Lines.Join(keys, "', '"));
  }

  /** Proof scaffolding: regroups the concatenation around the quoted body. */
  lemma SplitQuote(head: string, body: string)
    ensures head + " '" + body + "'" == head + " " + ("'" + body + "'")
  {
    assert " '" == " " + "'";
  }

  lemma ValidationMessageOneKey(id: string, key: string)
    ensures ValidationMessage(id, [key]) == "Action '" + id + "' expects property '" + key + "'"
  {
  }

  lemma ValidationMessageTwoKeys(id: string, first: string, second: string)
    ensures ValidationMessage(id, [first, second])
         == "Action '" + id + "' expects properties '" + first + "', '" + second + "'"
  {
    assert [first, second][1..] == [second];
    assert Lines.Join([first, second], "', '") == first + "', '" + second;
  }

  /** A key between single quotes. */
  function Quote(key: string): string
  {
    "'" + key + "'"
  }

  function QuoteAll(keys: seq<string>): (r: seq<string>)
    ensures |r| == |keys|
    ensures forall i :: 0 <= i < |keys| ==> r[i] == Quote(keys[i])
  {
    if |keys| == 0 then [] else [Quote(keys[0])] + QuoteAll(keys[1..])
  }

  lemma {:induction false} QuotedJoin(keys: seq<string>)
    requires |keys| > 0
    ensures "'" + Lines.Join(keys, "', '") + "'" == Lines.Join(QuoteAll(keys), ", ")
  {
    if |keys| > 1 {
      QuotedJoin(keys[1..]);
      assert QuoteAll(keys)[1..] == QuoteAll(keys[1..]);
    }
  }

  /** `throwValidationError`: never a normal return. */
  function ThrowValidationError<T>(a: ActionBase, keys: seq<string>): (r: Result<T, Error>)
    ensures r.Failure?
    ensures r.error == ValidationError(ValidationMessage(a.id, keys))
  {
    Failure(ValidationError(ValidationMessage(a.id, keys)))
  }

  /** `getLicense`: the action's own license unless it is null or undefined. */
  function GetLicense(a: ActionBase): (r: JsValue)
    ensures !a.license.IsNullish() ==> r == a.license
    ensures a.license.IsNullish() ==> r == a.defaultLicense
  {
    Coalesce(a.license, a.defaultLicense)
  }
}

=== FILE: file_selection.dfy ===
/**
 * The selection policy of src/index.js: which configured actions are loaded,
 * the gate before the walk, which spec a file gets, which paths are ignored,
 * and the recursive walk, over an abstract directory tree.
 */
module FileSelection {
  import opened Wrappers
  import opened Json

  // ---------------------------------------------------------------- strings

  /** `s.endsWith(suffix)`. */
  predicate EndsWith(s: string, suffix: string) {
    |suffix| <= |s| && s[|s| - |suffix|..] == suffix
  }

  predicate OccursAt(s: string, sub: string, k: nat) {
    k + |sub| <= |s| && s[k..k + |sub|] == sub
  }

  predicate Contains(s: string, sub: string) {
    exists k: nat :: k <= |s| && OccursAt(s, sub, k)
  }

  /** The first position at or after `from` where `sub` occurs, or -1. */
  function SearchFrom(s: string, sub: string, from: nat): (r: int)
    requires from <= |s|
    ensures r == -1 || from <= r <= |s|
    ensures r >= 0 ==> OccursAt(s, sub, r)
    ensures forall k: nat :: from <= k <= |s| && (r == -1 || k < r) ==> !OccursAt(s, sub, k)
    decreases |s| - from
  {
    if OccursAt(s, sub, from) then from
    else if from == |s| then -1
    else SearchFrom(s, sub, from + 1)
  }

  /** `s.indexOf(sub)`: the first occurrence, or -1 when there is none. */
  function IndexOf(s: string, sub: string): (r: int)
    ensures r >= 0 ==> OccursAt(s, sub, r) && forall k: nat :: k < r ==> !OccursAt(s, sub, k)
    ensures r == -1 <==> !Contains(s, sub)
  {
    SearchFrom(s, sub, 0)
  }

  // ---------------------------------------------------------------- configuration

  /**
   * The value configured for one action of a file spec. `prepared` stands for
   * the `actionMethod` that the action's `prepare` attaches to it.
   */
  datatype ActionItem = ActionItem(setting: Json, prepared: bool)

  datatype ActionEntry = ActionEntry(key: string, item: ActionItem)

  /** One entry of `fileSpecs`: a file-name suffix and its actions, in configuration order. */
  datatype FileSpec = FileSpec(pattern: string, actions: seq<ActionEntry>)

  function ActionKeys(spec: FileSpec): (r: seq<string>)
    ensures |r| == |spec.actions|
    ensures forall i :: 0 <= i < |r| ==> r[i] == spec.actions[i].key
  {
    seq(|spec.actions|, i requires 0 <= i < |spec.actions| => spec.actions[i].key)
  }

  /** Lines 78-80: `true` becomes an empty settings object; every other value passes unchanged. */
  function NormalizeSetting(v: Json): (r: Json)
    ensures r.JBool? ==> !r.b
    ensures v != JBool(true) ==> r == v
    ensures v == JBool(true) ==> r == JObj([])
  {
    if v == JBool(true) then JObj([]) else v
  }

  /**
   * A setting `prepare` can attach `actionMethod` to: only an object or an
   * array holds properties of its own; `false`, `null`, numbers and strings
   * do not, and `checkInit` then reads `actionMethod` as undefined.
   */
  predicate CarriesMethod(v: Json) {
    v.JObj? || v.JArr?
  }

  /**
   * The entry named after the action: its setting normalized, and prepared
   * when the normalized setting can carry the attached handler.
   */
  function Loaded(e: ActionEntry): ActionEntry {
    var setting := NormalizeSetting(e.item.setting);
    ActionEntry(e.key, ActionItem(setting, e.item.prepared || CarriesMethod(setting)))
  }

  function LoadSpec(spec: FileSpec, actionKey: string): (r: FileSpec)
    ensures r.pattern == spec.pattern && |r.actions| == |spec.actions|
    ensures forall j :: 0 <= j < |r.actions| ==>
              r.actions[j] == if spec.actions[j].key == actionKey then Loaded(spec.actions[j]) else spec.actions[j]
  {
    FileSpec(spec.pattern, seq(|spec.actions|, j requires 0 <= j < |spec.actions| =>
      if spec.actions[j].key == actionKey then Loaded(spec.actions[j]) else spec.actions[j]))
  }

  /**
   * `loadAction` (lines 71-85): every entry named after the action, in every
   * spec, gets its setting normalized and is prepared when that setting can
   * carry a handler; every other entry, and every pattern, is left alone.
   */
  function LoadAction(specs: seq<FileSpec>, actionKey: string): (r: seq<FileSpec>)
    ensures |r| == |specs|
    ensures forall i :: 0 <= i < |r| ==> r[i].pattern == specs[i].pattern && |r[i].actions| == |specs[i].actions|
    ensures forall i, j :: 0 <= i < |r| && 0 <= j < |r[i].actions| ==>
              r[i].actions[j] == if specs[i].actions[j].key == actionKey then Loaded(specs[i].actions[j]) else specs[i].actions[j]
  {
    seq(|specs|, i requires 0 <= i < |specs| => LoadSpec(specs[i], actionKey))
  }

  /**
   * Lines 58-61: the actions loaded one after the other. Loading keeps the
   * patterns, the number of actions of every spec and their keys.
   */
  function LoadActions(specs: seq<FileSpec>, actionKeys: seq<string>): (r: seq<FileSpec>)
    ensures |r| == |specs|
    ensures forall i :: 0 <= i < |r| ==> r[i].pattern == specs[i].pattern && |r[i].actions| == |specs[i].actions|
    ensures forall i, j :: 0 <= i < |r| && 0 <= j < |r[i].actions| ==> r[i].actions[j].key == specs[i].actions[j].key
    decreases |actionKeys|
  {
    if |actionKeys| == 0 then specs else LoadActions(LoadAction(specs, actionKeys[0]), actionKeys[1..])
  }

  /** The spec pattern and action key `checkInit` reports. */
  datatype Unprepared = Unprepared(pattern: string, actionKey: string)

  function FirstUnpreparedEntry(es: seq<ActionEntry>): (i: nat)
    ensures i <= |es|
    ensures i < |es| ==> !es[i].item.prepared
    ensures forall j :: 0 <= j < i ==> es[j].item.prepared
  {
    if |es| == 0 then 0 else if !es[0].item.prepared then 0 else 1 + FirstUnpreparedEntry(es[1..])
  }

  predicate AllPrepared(specs: seq<FileSpec>) {
    forall i, j :: 0 <= i < |specs| && 0 <= j < |specs[i].actions| ==> specs[i].actions[j].item.prepared
  }

  /**
   * `checkInit`: the first action item, in spec order then action order,
   * without an `actionMethod`; `None` lets the run go on.
   */
  function CheckInit(specs: seq<FileSpec>): (r: Option<Unprepared>)
    ensures r.None? <==> AllPrepared(specs)
    ensures r.Some? ==> exists i, j :: 0 <= i < |specs| && 0 <= j < |specs[i].actions|
                          && !specs[i].actions[j].item.prepared
                          && r.value == Unprepared(specs[i].pattern, specs[i].actions[j].key)
  {
    if |specs| == 0 then None
    else
      var j := FirstUnpreparedEntry(specs[0].actions);
      if j < |specs[0].actions| then Some(Unprepared(specs[0].pattern, specs[0].actions[j].key))
      else
        var rest := CheckInit(specs[1..]);
        assert forall i :: 1 <= i < |specs| ==> specs[i] == specs[1..][i - 1];
        rest
  }

  // ---------------------------------------------------------------- matching

  /** The position of the first spec whose pattern ends the path, or `|specs|`. */
  function MatchIndex(specs: seq<FileSpec>, path: string): (i: nat)
    ensures i <= |specs|
    ensures i < |specs| ==> EndsWith(path, specs[i].pattern)
    ensures forall j :: 0 <= j < i ==> !EndsWith(path, specs[j].pattern)
  {
    if |specs| == 0 then 0 else if EndsWith(path, specs[0].pattern) then 0 else 1 + MatchIndex(specs[1..], path)
  }

  /** `getFileSpec`: the first spec, in configuration order, whose pattern is a suffix of the path. */
  function GetFileSpec(specs: seq<FileSpec>, path: string): (r: Option<FileSpec>)
    ensures r.None? <==> forall i :: 0 <= i < |specs| ==> !EndsWith(path, specs[i].pattern)
    ensures r.Some? ==> exists i :: 0 <= i < |specs| && r.value == specs[i] && EndsWith(path, specs[i].pattern)
                                    && forall j :: 0 <= j < i ==> !EndsWith(path, specs[j].pattern)
  {
    var i := MatchIndex(specs, path);
    if i < |specs| then Some(specs[i]) else None
  }

  /**
   * `ignore`: the ignore entries are tried in order with `indexOf`; a path is
   * ignored exactly when some entry of the list occurs in it.
   */
  function Ignore(ignores: seq<string>, path: string): (r: bool)
    ensures r <==> exists i :: 0 <= i < |ignores| && Contains(path, ignores[i])
  {
    if |ignores| == 0 then false
    else if IndexOf(path, ignores[0]) >= 0 then true
    else
      var rest := Ignore(ignores[1..], path);
      assert forall i :: 1 <= i < |ignores| ==> ignores[i] == ignores[1..][i - 1];
      rest
  }

  // ---------------------------------------------------------------- the walk

  /** A directory entry as `stat` classifies it; `Special` is neither a file nor a directory. */
  datatype Entry =
    | File(name: string)
    | Dir(name: string, entries: seq<Entry>)
    | Special(name: string)

  /** `path.resolve(dir, file)` for a plain entry name. */
  function FullPath(dir: string, name: string): string {
    dir + "/" + name
  }

  /** One call of `handleMatchingFile`: the path and the actions run on it, in spec order. */
  datatype Visit = Visit(path: string, actions: seq<string>)

  /** The files handled, in order, and the path of the entry that stopped the walk, if any. */
  datatype Walk = Walk(visits: seq<Visit>, failedAt: Option<string>)

  predicate Handles(specs: seq<FileSpec>, v: Visit) {
    GetFileSpec(specs, v.path).Some? && v.actions == ActionKeys(GetFileSpec(specs, v.path).value)
  }

  /** Lines 130-136: every action of the spec runs on the file, in the spec's order. */
  function HandleMatchingFile(path: string, spec: FileSpec): (v: Visit)
    ensures v.path == path && |v.actions| == |spec.actions|
    ensures forall i :: 0 <= i < |v.actions| ==> v.actions[i] == spec.actions[i].key
  {
    Visit(path, ActionKeys(spec))
  }

  /** `loop`: the entries of one directory, in `readdir` order, stopping at the first error. */
  function Loop(specs: seq<FileSpec>, ignores: seq<string>, dir: string, entries: seq<Entry>): (w: Walk)
    ensures forall i :: 0 <= i < |w.visits| ==> Handles(specs, w.visits[i])
    decreases entries
  {
    if |entries| == 0 then Walk([], None)
    else
      var here := VisitEntry(specs, ignores, dir, entries[0]);
      if here.failedAt.Some? then here
      else
        var rest := Loop(specs, ignores, dir, entries[1..]);
        Walk(here.visits + rest.visits, rest.failedAt)
  }

  /** The body of the loop for one entry (lines 149-160). */
  function VisitEntry(specs: seq<FileSpec>, ignores: seq<string>, dir: string, e: Entry): (w: Walk)
    ensures forall i :: 0 <= i < |w.visits| ==> Handles(specs, w.visits[i])
    decreases e
  {
    var p := FullPath(dir, e.name);
    if Ignore(ignores, p) then Walk([], None)
    else match e
      case Dir(_, es) => Loop(specs, ignores, p, es)
      case File(_) =>
        (match GetFileSpec(specs, p)
         case Some(spec) => Walk([HandleMatchingFile(p, spec)], None)
         case None => Walk([], None))
      case Special(_) => Walk([], Some(p))
  }

  /** What a run of `start` after the configuration is read comes to. */
  datatype Run = Halted(unprepared: Unprepared) | Walked(walk: Walk)

  /** Lines 58-63: load the actions, pass the gate, walk the source directory. */
  function Start(specs: seq<FileSpec>, actionKeys: seq<string>, ignores: seq<string>, root: string, entries: seq<Entry>): (r: Run)
    ensures r.Halted? <==> !AllPrepared(LoadActions(specs, actionKeys))
    ensures r.Walked? ==> r.walk == Loop(LoadActions(specs, actionKeys), ignores, root, entries)
  {
    var loaded := LoadActions(specs, actionKeys);
    match CheckInit(loaded)
    case Some(u) => Halted(u)
    case None => Walked(Loop(loaded, ignores, root, entries))
  }

  /** A walk that handled every entry it reached. */
  predicate Completed(r: Run) {
    r.Walked? && r.walk.failedAt.None?
  }

  /**
   * The process exit status as written: `checkInit` calls `process.exit(0)`,
   * an error thrown by the walk ends the process with status 1, and a
   * completed walk ends with status 0.
   */
  function ExitCode(r: Run): (code: int)
    ensures r.Walked? ==> (code == 0 <==> Completed(r))
  {
    match r
    case Halted(_) => 0
    case Walked(w) => if w.failedAt.Some? then 1 else 0
  }

  /** The exit status once a missing handler is reported as the error it is logged as. */
  function ExitCodeIntended(r: Run): (code: int)
    ensures code == 0 <==> Completed(r)
  {
    match r
    case Halted(_) => 1
    case Walked(w) => if w.failedAt.Some? then 1 else 0
  }

  /** As written, a run stopped by the gate exits exactly like a completed one. */
  lemma HaltLooksLikeSuccess(u: Unprepared)
    ensures ExitCode(Halted(u)) == ExitCode(Walked(Walk([], None))) == 0
    ensures !Completed(Halted(u)) && Completed(Walked(Walk([], None)))
  {
  }

  /** The number `start` logs: one per handled file. */
  function Count(w: Walk): nat {
    |w.visits|
  }

  // ---------------------------------------------------------------- reference definition of the walk

  /** A file or special entry of the tree, with the full paths of the directories above it. */
  datatype Leaf = Leaf(path: string, ancestors: seq<string>, isFile: bool)

  function Leaves(dir: string, ancestors: seq<string>, entries: seq<Entry>): seq<Leaf>
    decreases entries
  {
    if |entries| == 0 then [] else EntryLeaves(dir, ancestors, entries[0]) + Leaves(dir, ancestors, entries[1..])
  }

  function EntryLeaves(dir: string, ancestors: seq<string>, e: Entry): seq<Leaf>
    decreases e
  {
    var p := FullPath(dir, e.name);
    match e
    case File(_) => [Leaf(p, ancestors, true)]
    case Special(_) => [Leaf(p, ancestors, false)]
    case Dir(_, es) => Leaves(p, ancestors + [p], es)
  }

  /** Neither the leaf nor any directory above it is ignored. */
  predicate Visible(ignores: seq<string>, l: Leaf) {
    !Ignore(ignores, l.path) && forall i :: 0 <= i < |l.ancestors| ==> !Ignore(ignores, l.ancestors[i])
  }

  /** The visible files a spec matches, in tree order. */
  function Chosen(specs: seq<FileSpec>, ignores: seq<string>, ls: seq<Leaf>): seq<string>
    decreases |ls|
  {
    if |ls| == 0 then []
    else (if Picked(specs, ignores, ls[0]) then [ls[0].path] else []) + Chosen(specs, ignores, ls[1..])
  }

  predicate Picked(specs: seq<FileSpec>, ignores: seq<string>, l: Leaf) {
    l.isFile && Visible(ignores, l) && GetFileSpec(specs, l.path).Some?
  }

  /** The position of the first visible special entry, or `|ls|`. */
  function FirstBlocking(ignores: seq<string>, ls: seq<Leaf>): (k: nat)
    ensures k <= |ls|
    ensures k < |ls| ==> !ls[k].isFile && Visible(ignores, ls[k])
    ensures forall j :: 0 <= j < k ==> ls[j].isFile || !Visible(ignores, ls[j])
  {
    if |ls| == 0 then 0
    else if !ls[0].isFile && Visible(ignores, ls[0]) then 0
    else 1 + FirstBlocking(ignores, ls[1..])
  }

  /** The paths of the handled files, in order. */
  function Paths(vs: seq<Visit>): (r: seq<string>)
    ensures |r| == |vs|
  {
    if |vs| == 0 then [] else [vs[0].path] + Paths(vs[1..])
  }

  // ---------------------------------------------------------------- lemmas: strings and configuration

  /** With no ignore entries nothing is ignored; the empty entry ignores everything. */
  lemma IgnoreExtremes(path: string)
    ensures !Ignore([], path)
    ensures Ignore([""], path)
  {
    assert OccursAt(path, "", 0);
  }

  /** A later spec whose pattern also matches is never chosen over an earlier one. */
  lemma FirstSpecWins(specs: seq<FileSpec>, path: string, i: nat)
    requires i < |specs| && EndsWith(path, specs[i].pattern)
    ensures GetFileSpec(specs, path).Some?
    ensures GetFileSpec(specs, path).value == specs[MatchIndex(specs, path)]
    ensures MatchIndex(specs, path) <= i
  {
  }

  /**
   * After loading, an action item is prepared exactly when it already was or
   * its key is one of the loaded actions and its normalized setting can carry
   * a handler; the setting is normalized exactly when its key was loaded.
   */
  lemma {:induction false} LoadActionsPrepares(specs: seq<FileSpec>, actionKeys: seq<string>, i: nat, j: nat)
    requires i < |specs| && j < |specs[i].actions|
    ensures var e := specs[i].actions[j];
            var loaded := LoadActions(specs, actionKeys);
            && i < |loaded| && j < |loaded[i].actions|
            && var r := loaded[i].actions[j];
            && r.key == e.key
            && (r.item.prepared <==> e.item.prepared || (e.key in actionKeys && CarriesMethod(NormalizeSetting(e.item.setting))))
            && r.item.setting == if e.key in actionKeys then NormalizeSetting(e.item.setting) else e.item.setting
    decreases |actionKeys|
  {
    if |actionKeys| > 0 {
      var once := LoadAction(specs, actionKeys[0]);
      LoadActionsPrepares(once, actionKeys[1..], i, j);
      assert actionKeys == [actionKeys[0]] + actionKeys[1..];
      assert NormalizeSetting(NormalizeSetting(specs[i].actions[j].item.setting)) == NormalizeSetting(specs[i].actions[j].item.setting);
    }
  }

  /**
   * The gate: when nothing is prepared beforehand, the walk starts exactly
   * when every configured action key is one of the loaded actions and every
   * setting is `true`, an object or an array.
   */
  lemma StartGate(specs: seq<FileSpec>, actionKeys: seq<string>, ignores: seq<string>, root: string, entries: seq<Entry>)
    requires forall i, j :: 0 <= i < |specs| && 0 <= j < |specs[i].actions| ==> !specs[i].actions[j].item.prepared
    ensures Start(specs, actionKeys, ignores, root, entries).Walked?
            <==> forall i, j :: 0 <= i < |specs| && 0 <= j < |specs[i].actions| ==>
                   specs[i].actions[j].key in actionKeys && CarriesMethod(NormalizeSetting(specs[i].actions[j].item.setting))
  {
    var loaded := LoadActions(specs, actionKeys);
    forall i, j | 0 <= i < |specs| && 0 <= j < |specs[i].actions|
      ensures loaded[i].actions[j].item.prepared <==>
              specs[i].actions[j].key in actionKeys && CarriesMethod(NormalizeSetting(specs[i].actions[j].item.setting))
    {
      LoadActionsPrepares(specs, actionKeys, i, j);
    }
  }

  /**
   * A `false` setting cannot carry the handler, so the run halts even though
   * its action was loaded; `true` becomes `{}` and the run walks.
   */
  lemma FalseSettingHalts(ignores: seq<string>, root: string, entries: seq<Entry>)
    ensures Start([FileSpec(".js", [ActionEntry("header", ActionItem(JBool(false), false))])], ["header"], ignores, root, entries).Halted?
    ensures Start([FileSpec(".js", [ActionEntry("header", ActionItem(JBool(true), false))])], ["header"], ignores, root, entries).Walked?
  {
    LoadActionsPrepares([FileSpec(".js", [ActionEntry("header", ActionItem(JBool(false), false))])], ["header"], 0, 0);
    LoadActionsPrepares([FileSpec(".js", [ActionEntry("header", ActionItem(JBool(true), false))])], ["header"], 0, 0);
  }

  /** A halted run never reads the tree: its outcome does not depend on it. */
  lemma HaltedIgnoresTree(specs: seq<FileSpec>, actionKeys: seq<string>, ignores: seq<string>, root: string, e1: seq<Entry>, e2: seq<Entry>)
    requires Start(specs, actionKeys, ignores, root, e1).Halted?
    ensures Start(specs, actionKeys, ignores, root, e2) == Start(specs, actionKeys, ignores, root, e1)
  {
  }

  // ---------------------------------------------------------------- lemmas: the walk against its reference

  lemma {:induction false} ChosenAppend(specs: seq<FileSpec>, ignores: seq<string>, a: seq<Leaf>, b: seq<Leaf>)
    ensures Chosen(specs, ignores, a + b) == Chosen(specs, ignores, a) + Chosen(specs, ignores, b)
    decreases |a|
  {
    if |a| > 0 {
      ChosenAppend(specs, ignores, a[1..], b);
      assert (a + b)[0] == a[0];
      assert (a + b)[1..] == a[1..] + b;
      var head := if Picked(specs, ignores, a[0]) then [a[0].path] else [];
      assert Chosen(specs, ignores, a + b) == head + Chosen(specs, ignores, a[1..] + b);
      assert Chosen(specs, ignores, a) == head + Chosen(specs, ignores, a[1..]);
    } else {
      assert a + b == b;
    }
  }

  lemma {:induction false} FirstBlockingAppend(ignores: seq<string>, a: seq<Leaf>, b: seq<Leaf>)
    ensures FirstBlocking(ignores, a + b)
            == if FirstBlocking(ignores, a) < |a| then FirstBlocking(ignores, a) else |a| + FirstBlocking(ignores, b)
    decreases |a|
  {
    if |a| > 0 {
      FirstBlockingAppend(ignores, a[1..], b);
      assert (a + b)[1..] == a[1..] + b;
    } else {
      assert a + b == b;
    }
  }

  lemma {:induction false} ChosenHidden(specs: seq<FileSpec>, ignores: seq<string>, ls: seq<Leaf>)
    requires forall i :: 0 <= i < |ls| ==> !Visible(ignores, ls[i])
    ensures Chosen(specs, ignores, ls) == []
    decreases |ls|
  {
    if |ls| > 0 {
      ChosenHidden(specs, ignores, ls[1..]);
    }
  }

  /** Every leaf below a directory keeps the directories above it as a prefix of its ancestors. */
  lemma {:induction false} LeavesKeepAncestors(dir: string, ancestors: seq<string>, entries: seq<Entry>)
    ensures forall i :: 0 <= i < |Leaves(dir, ancestors, entries)| ==> ancestors <= Leaves(dir, ancestors, entries)[i].ancestors
    decreases entries
  {
    if |entries| > 0 {
      EntryLeavesKeepAncestors(dir, ancestors, entries[0]);
      LeavesKeepAncestors(dir, ancestors, entries[1..]);
    }
  }

  lemma {:induction false} EntryLeavesKeepAncestors(dir: string, ancestors: seq<string>, e: Entry)
    ensures forall i :: 0 <= i < |EntryLeaves(dir, ancestors, e)| ==> ancestors <= EntryLeaves(dir, ancestors, e)[i].ancestors
    decreases e
  {
    if e.Dir? {
      var p := FullPath(dir, e.name);
      LeavesKeepAncestors(p, ancestors + [p], e.entries);
    }
  }

  /** Everything below an ignored directory is invisible. */
  lemma HiddenBelow(specs: seq<FileSpec>, ignores: seq<string>, dir: string, ancestors: seq<string>, entries: seq<Entry>, a: nat)
    requires a < |ancestors| && Ignore(ignores, ancestors[a])
    ensures var ls := Leaves(dir, ancestors, entries);
            Chosen(specs, ignores, ls) == [] && FirstBlocking(ignores, ls) == |ls|
  {
    LeavesKeepAncestors(dir, ancestors, entries);
    var ls := Leaves(dir, ancestors, entries);
    forall i | 0 <= i < |ls|
      ensures !Visible(ignores, ls[i])
    {
      assert ls[i].ancestors[a] == ancestors[a];
    }
    ChosenHidden(specs, ignores, ls);
  }

  predicate WalkAgrees(specs: seq<FileSpec>, ignores: seq<string>, w: Walk, ls: seq<Leaf>) {
    var k := FirstBlocking(ignores, ls);
    && Paths(w.visits) == Chosen(specs, ignores, ls[..k])
    && w.failedAt == if k < |ls| then Some(ls[k].path) else None
  }

  /** The walk of an entry followed by the walk of the rest agrees with the leaves of both. */
  lemma CombineAgrees(specs: seq<FileSpec>, ignores: seq<string>, here: Walk, rest: Walk, le: seq<Leaf>, lr: seq<Leaf>)
    requires WalkAgrees(specs, ignores, here, le) && WalkAgrees(specs, ignores, rest, lr)
    ensures WalkAgrees(specs, ignores, if here.failedAt.Some? then here else Walk(here.visits + rest.visits, rest.failedAt), le + lr)
  {
    FirstBlockingAppend(ignores, le, lr);
    if here.failedAt.Some? {
      StoppedAgrees(specs, ignores, here, le, lr);
    } else {
      ContinuedAgrees(specs, ignores, here, rest, le, lr);
    }
  }

  lemma StoppedAgrees(specs: seq<FileSpec>, ignores: seq<string>, here: Walk, le: seq<Leaf>, lr: seq<Leaf>)
    requires WalkAgrees(specs, ignores, here, le) && here.failedAt.Some?
    requires FirstBlocking(ignores, le + lr) == FirstBlocking(ignores, le)
    ensures WalkAgrees(specs, ignores, here, le + lr)
  {
    var k := FirstBlocking(ignores, le);
    assert (le + lr)[..k] == le[..k];
    assert (le + lr)[k] == le[k];
  }

  lemma ContinuedAgrees(specs: seq<FileSpec>, ignores: seq<string>, here: Walk, rest: Walk, le: seq<Leaf>, lr: seq<Leaf>)
    requires WalkAgrees(specs, ignores, here, le) && WalkAgrees(specs, ignores, rest, lr) && here.failedAt.None?
    requires FirstBlocking(ignores, le + lr) == |le| + FirstBlocking(ignores, lr)
    ensures WalkAgrees(specs, ignores, Walk(here.visits + rest.visits, rest.failedAt), le + lr)
  {
    var kr := FirstBlocking(ignores, lr);
    assert FirstBlocking(ignores, le) == |le|;
    assert le[..|le|] == le;
    VisitsAppend(specs, ignores, here.visits, rest.visits, le, lr, kr);
    var ls := le + lr;
    var k := FirstBlocking(ignores, ls);
    var w := Walk(here.visits + rest.visits, rest.failedAt);
    assert k == |le| + kr;
    assert ls[..k] == (le + lr)[..|le| + kr];
    assert Paths(w.visits) == Chosen(specs, ignores, ls[..k]);
    if kr < |lr| {
      assert ls[k] == lr[kr];
    }
    assert w.failedAt == if k < |ls| then Some(ls[k].path) else None;
  }

  /** The visits of two consecutive walks are the chosen files of both leaf runs. */
  lemma VisitsAppend(specs: seq<FileSpec>, ignores: seq<string>, hv: seq<Visit>, rv: seq<Visit>, le: seq<Leaf>, lr: seq<Leaf>, kr: nat)
    requires kr <= |lr|
    requires Paths(hv) == Chosen(specs, ignores, le) && Paths(rv) == Chosen(specs, ignores, lr[..kr])
    ensures Paths(hv + rv) == Chosen(specs, ignores, (le + lr)[..|le| + kr])
  {
    PathsAppend(hv, rv);
    ChosenPrefixAppend(specs, ignores, le, lr, kr);
  }

  lemma ChosenPrefixAppend(specs: seq<FileSpec>, ignores: seq<string>, le: seq<Leaf>, lr: seq<Leaf>, kr: nat)
    requires kr <= |lr|
    ensures Chosen(specs, ignores, (le + lr)[..|le| + kr]) == Chosen(specs, ignores, le) + Chosen(specs, ignores, lr[..kr])
  {
    assert (le + lr)[..|le| + kr] == le + lr[..kr];
    ChosenAppend(specs, ignores, le, lr[..kr]);
  }

  /** Proof scaffolding: reassociates a three-part concatenation. */
  lemma PathsRegroup(x: seq<string>, y: seq<string>, z: seq<string>)
    ensures x + (y + z) == (x + y) + z
  {}

  lemma {:induction false} PathsAppend(a: seq<Visit>, b: seq<Visit>)
    ensures Paths(a + b) == Paths(a) + Paths(b)
  {
    if |a| == 0 {
      assert a + b == b;
    } else {
      PathsAppend(a[1..], b);
      var head := [a[0].path];
      assert Paths(a + b) == head + Paths(a[1..] + b) by {
        assert (a + b)[0] == a[0] && (a + b)[1..] == a[1..] + b;
      }
      assert Paths(a) == head + Paths(a[1..]);
      PathsRegroup(head, Paths(a[1..]), Paths(b));
    }
  }

  /**
   * The walk handles exactly the visible files a spec matches, in tree order,
   * up to the first visible entry that is neither a file nor a directory; the
   * walk stops there with that entry's path, and only there.
   */
  lemma {:induction false} LoopAgrees(specs: seq<FileSpec>, ignores: seq<string>, dir: string, ancestors: seq<string>, entries: seq<Entry>)
    requires forall i :: 0 <= i < |ancestors| ==> !Ignore(ignores, ancestors[i])
    ensures WalkAgrees(specs, ignores, Loop(specs, ignores, dir, entries), Leaves(dir, ancestors, entries))
    decreases entries
  {
    if |entries| == 0 {
      assert Leaves(dir, ancestors, entries)[..0] == [];
    } else {
      VisitEntryAgrees(specs, ignores, dir, ancestors, entries[0]);
      LoopAgrees(specs, ignores, dir, ancestors, entries[1..]);
      CombineAgrees(specs, ignores, VisitEntry(specs, ignores, dir, entries[0]), Loop(specs, ignores, dir, entries[1..]),
                    EntryLeaves(dir, ancestors, entries[0]), Leaves(dir, ancestors, entries[1..]));
    }
  }

  lemma {:induction false} VisitEntryAgrees(specs: seq<FileSpec>, ignores: seq<string>, dir: string, ancestors: seq<string>, e: Entry)
    requires forall i :: 0 <= i < |ancestors| ==> !Ignore(ignores, ancestors[i])
    ensures WalkAgrees(specs, ignores, VisitEntry(specs, ignores, dir, e), EntryLeaves(dir, ancestors, e))
    decreases e
  {
    var p := FullPath(dir, e.name);
    var ls := EntryLeaves(dir, ancestors, e);
    if e.Dir? {
      var anc' := ancestors + [p];
      if Ignore(ignores, p) {
        HiddenBelow(specs, ignores, p, anc', e.entries, |ancestors|);
        assert ls[..|ls|] == ls;
      } else {
        LoopAgrees(specs, ignores, p, anc', e.entries);
      }
    } else {
      assert ls[1..] == [];
      var k := FirstBlocking(ignores, ls);
      if e.File? {
        assert k == 1 && ls[..k] == ls;
      } else if Ignore(ignores, p) {
        assert k == 1 && ls[..k] == ls;
      } else {
        assert k == 0 && ls[..k] == [];
      }
    }
  }

  /** The walk from the root: its count is the number of visible matched files, when it does not stop early. */
  lemma WalkCount(specs: seq<FileSpec>, ignores: seq<string>, root: string, entries: seq<Entry>)
    ensures var w := Loop(specs, ignores, root, entries);
            var ls := Leaves(root, [], entries);
            && (w.failedAt.None? <==> FirstBlocking(ignores, ls) == |ls|)
            && (w.failedAt.None? ==> Paths(w.visits) == Chosen(specs, ignores, ls) && Count(w) == |Chosen(specs, ignores, ls)|)
  {
    LoopAgrees(specs, ignores, root, [], entries);
    var ls := Leaves(root, [], entries);
    assert ls[..|ls|] == ls;
  }
}

=== FILE: json.dfy ===
/**
 * Parsed JSON documents as src/actions/json.js handles them. An object is an
 * ordered list of members, in the order `JSON.stringify` writes them.
 */
module Json {
  import opened Wrappers

  datatype Json =
    | JNull
    | JBool(b: bool)
    | JNum(n: int)
    | JStr(s: string)
    | JArr(items: seq<Json>)
    | JObj(members: seq<Member>)

  datatype Member = Member(key: string, value: Json)

  /** What lodash's `isObject` rejects: everything but arrays and objects (`null` included). */
  predicate IsScalar(j: Json) {
    !j.JArr? && !j.JObj?
  }

  function Keys(ms: seq<Member>): (r: seq<string>)
    ensures |r| == |ms|
    ensures forall i :: 0 <= i < |ms| ==> r[i] == ms[i].key
  {
    seq(|ms|, i requires 0 <= i < |ms| => ms[i].key)
  }

  predicate UniqueKeys(ms: seq<Member>) {
    forall i, j :: 0 <= i < j < |ms| ==> ms[i].key != ms[j].key
  }

  /** A JavaScript object has one value per key, at every depth. */
  predicate WellFormed(j: Json) {
    match j
    case JArr(items) => forall i :: 0 <= i < |items| ==> WellFormed(items[i])
    case JObj(ms) => WellFormedMembers(ms)
    case _ => true
  }

  predicate WellFormedMembers(ms: seq<Member>) {
    UniqueKeys(ms) && forall i :: 0 <= i < |ms| ==> WellFormed(ms[i].value)
  }

  predicate WellFormedSlot(t: Option<Json>) {
    t.Some? ==> WellFormed(t.value)
  }

  /** The position of the first member named `k`, or `|ms|`. */
  function IndexOfKey(ms: seq<Member>, k: string): (i: nat)
    ensures i <= |ms|
    ensures i < |ms| ==> ms[i].key == k
    ensures forall j :: 0 <= j < i ==> ms[j].key != k
  {
    if |ms| == 0 then 0 else if ms[0].key == k then 0 else 1 + IndexOfKey(ms[1..], k)
  }

  /** `obj[k]`, `None` standing for `undefined`. */
  function Get(ms: seq<Member>, k: string): (r: Option<Json>)
    ensures r.Some? <==> k in Keys(ms)
  {
    var i := IndexOfKey(ms, k);
    if i < |ms| then Some(ms[i].value) else None
  }

  /** The value at a path of keys through nested objects. */
  function Lookup(j: Json, path: seq<string>): Option<Json>
    decreases path
  {
    if |path| == 0 then Some(j)
    else if !j.JObj? then None
    else match Get(j.members, path[0])
      case None => None
      case Some(v) => Lookup(v, path[1..])
  }

  // ---------------------------------------------------------------- key lemmas

  lemma GetUnique(ms: seq<Member>, i: nat)
    requires UniqueKeys(ms) && i < |ms|
    ensures Get(ms, ms[i].key) == Some(ms[i].value)
  {
    var j := IndexOfKey(ms, ms[i].key);
    assert j >= i;
  }

  lemma GetWellFormed(ms: seq<Member>, k: string)
    requires WellFormedMembers(ms)
    ensures Get(ms, k).Some? ==> WellFormed(Get(ms, k).value)
  {
  }

  lemma IndexOfKeySameKeys(a: seq<Member>, b: seq<Member>, k: string)
    requires Keys(a) == Keys(b)
    ensures IndexOfKey(a, k) == IndexOfKey(b, k)
  {
    var i, j := IndexOfKey(a, k), IndexOfKey(b, k);
    assert forall x :: 0 <= x < |a| ==> a[x].key == Keys(a)[x] == Keys(b)[x] == b[x].key;
  }

  /** Replacing the value of the member at `i` changes what that key reads and nothing else. */
  lemma GetAfterUpdate(ms: seq<Member>, i: nat, v: Json, k: string)
    requires i < |ms| && i == IndexOfKey(ms, ms[i].key)
    ensures var ms' := ms[i := Member(ms[i].key, v)];
            Keys(ms') == Keys(ms)
            && Get(ms', k) == if k == ms[i].key then Some(v) else Get(ms, k)
  {
    var ms' := ms[i := Member(ms[i].key, v)];
    assert Keys(ms') == Keys(ms);
    IndexOfKeySameKeys(ms, ms', k);
  }

  /** Appending a member with a new key makes it readable and changes nothing else. */
  lemma GetAfterAppend(ms: seq<Member>, m: Member, k: string)
    requires m.key !in Keys(ms)
    ensures Keys(ms + [m]) == Keys(ms) + [m.key]
    ensures Get(ms + [m], k) == if k == m.key then Some(m.value) else Get(ms, k)
  {
    var i, j := IndexOfKey(ms, k), IndexOfKey(ms + [m], k);
    assert Keys(ms + [m]) == Keys(ms) + [m.key];
    if i < |ms| {
      assert (ms + [m])[i].key == k;
      assert j <= i;
    } else {
      assert forall x :: 0 <= x < |ms| ==> ms[x].key != k;
    }
  }

  /** The first member decides what its key reads. */
  lemma GetCons(m: Member, ms: seq<Member>, k: string)
    ensures Get([m] + ms, k) == if k == m.key then Some(m.value) else Get(ms, k)
  {
    var ms' := [m] + ms;
    assert ms'[0] == m && ms'[1..] == ms;
    assert IndexOfKey(ms', k) == if k == m.key then 0 else 1 + IndexOfKey(ms, k);
  }

  /** Two objects with unique keys, the same key order and the same value under every key are equal. */
  lemma MembersExtensional(a: seq<Member>, b: seq<Member>)
    requires UniqueKeys(a) && UniqueKeys(b) && Keys(a) == Keys(b)
    requires forall k :: Get(a, k) == Get(b, k)
    ensures a == b
  {
    forall i | 0 <= i < |a|
      ensures a[i] == b[i]
    {
      assert a[i].key == Keys(a)[i] == Keys(b)[i] == b[i].key;
      GetUnique(a, i);
      GetUnique(b, i);
      assert Get(a, a[i].key) == Get(b, b[i].key);
    }
  }

  // ---------------------------------------------------------------- appended keys

  /** The keys of `ks` that are not yet in `existing`, each once, in first-occurrence order. */
  function NewKeys(existing: seq<string>, ks: seq<string>): seq<string>
    decreases |ks|
  {
    if |ks| == 0 then []
    else if ks[0] in existing then NewKeys(existing, ks[1..])
    else [ks[0]] + NewKeys(existing + [ks[0]], ks[1..])
  }

  lemma {:induction false} NewKeysFresh(existing: seq<string>, ks: seq<string>)
    ensures forall k :: k in NewKeys(existing, ks) ==> k in ks && k !in existing
    ensures forall k :: k in ks ==> k in existing + NewKeys(existing, ks)
    decreases |ks|
  {
    if |ks| > 0 {
      if ks[0] in existing {
        NewKeysFresh(existing, ks[1..]);
      } else {
        NewKeysFresh(existing + [ks[0]], ks[1..]);
        assert existing + NewKeys(existing, ks) == (existing + [ks[0]]) + NewKeys(existing + [ks[0]], ks[1..]);
      }
    }
  }

  lemma {:induction false} NewKeysNoDuplicates(existing: seq<string>, ks: seq<string>)
    ensures forall i, j :: 0 <= i < j < |NewKeys(existing, ks)| ==> NewKeys(existing, ks)[i] != NewKeys(existing, ks)[j]
    decreases |ks|
  {
    if |ks| > 0 {
      if ks[0] in existing {
        NewKeysNoDuplicates(existing, ks[1..]);
      } else {
        NewKeysNoDuplicates(existing + [ks[0]], ks[1..]);
        NewKeysFresh(existing + [ks[0]], ks[1..]);
        var rest := NewKeys(existing + [ks[0]], ks[1..]);
        assert ks[0] !in rest;
        assert NewKeys(existing, ks) == [ks[0]] + rest;
      }
    }
  }

  /** One step of a key-appending fold: the keys so far followed by the new keys of the rest. */
  lemma NewKeysStep(existing: seq<string>, existing': seq<string>, k: string, ks: seq<string>)
    requires existing' == existing + (if k in existing then [] else [k])
    ensures existing + NewKeys(existing, [k] + ks) == existing' + NewKeys(existing', ks)
  {
    assert ([k] + ks)[0] == k && ([k] + ks)[1..] == ks;
    if k !in existing {
      assert existing + ([k] + NewKeys(existing', ks)) == existing' + NewKeys(existing', ks);
    } else {
      assert existing' == existing;
    }
  }

  /** Keys that are all new and distinct are appended as they are. */
  lemma {:induction false} NewKeysOfFresh(existing: seq<string>, ks: seq<string>)
    requires forall i, j :: 0 <= i < j < |ks| ==> ks[i] != ks[j]
    requires forall i :: 0 <= i < |ks| ==> ks[i] !in existing
    ensures NewKeys(existing, ks) == ks
    decreases |ks|
  {
    if |ks| > 0 {
      var rest := ks[1..];
      assert forall i :: 0 <= i < |rest| ==> rest[i] == ks[i + 1] && ks[i + 1] != ks[0];
      NewKeysOfFresh(existing + [ks[0]], rest);
      assert ks == [ks[0]] + rest;
    }
  }

  lemma {:induction false} NewKeysOfPresent(existing: seq<string>, ks: seq<string>)
    requires forall k :: k in ks ==> k in existing
    ensures NewKeys(existing, ks) == []
    decreases |ks|
  {
    if |ks| > 0 {
      NewKeysOfPresent(existing, ks[1..]);
    }
  }
}

=== FILE: json_merge.dfy ===
/**
 * The JSON action (src/actions/json.js): lodash's `_.merge` of the `force`
 * settings, `_.mergeWith` of the `defaults` settings with a customizer that
 * keeps every defined value, and the rewrite only on a changed serialization.
 */
module JsonMerge {
  import opened Wrappers
  import opened Json
  import Action

  // ---------------------------------------------------------------- force: lodash `_.merge`

  /**
   * The value lodash's `baseMerge` leaves in a slot holding `target` (`None`
   * when the key is missing) after merging the source value `src` into it.
   * A source object merges into an object, is copied into a missing or scalar
   * slot, and leaves an array in place (lodash writes its keys as array
   * properties, which serialization drops). A source array merges index by
   * index into an array and is copied over anything else. A scalar overwrites.
   */
  function Merge(target: Option<Json>, src: Json): (r: Json)
    ensures IsScalar(src) ==> r == src
    ensures src.JArr? ==> r.JArr?
    ensures src.JObj? ==> r.JObj? || (target.Some? && target.value.JArr? && r == target.value)
    decreases src
  {
    match src
    case JObj(sm) =>
      (match target
       case Some(JObj(tm)) => JObj(MergeMembers(tm, sm))
       case Some(JArr(_)) => target.value
       case _ => JObj(MergeMembers([], sm)))
    case JArr(sa) =>
      (match target
       case Some(JArr(ta)) => JArr(MergeItems(ta, sa))
       case _ => JArr(MergeItems([], sa)))
    case _ => src
  }

  /** One step of `baseFor` over the source keys: merge into the existing member, or append. */
  function MergeMember(tm: seq<Member>, m: Member): seq<Member>
    decreases m
  {
    var i := IndexOfKey(tm, m.key);
    if i < |tm| then tm[i := Member(m.key, Merge(Some(tm[i].value), m.value))]
    else tm + [Member(m.key, Merge(None, m.value))]
  }

  /** Merging the members of a source object into those of a target object, in source order. */
  function MergeMembers(tm: seq<Member>, sm: seq<Member>): seq<Member>
    decreases sm
  {
    if |sm| == 0 then tm else MergeMembers(MergeMember(tm, sm[0]), sm[1..])
  }

  function Max(a: nat, b: nat): nat {
    if a < b then b else a
  }

  /** Merging a source array into a target array, index by index. */
  function MergeItems(ta: seq<Json>, sa: seq<Json>): (r: seq<Json>)
    ensures |r| == Max(|ta|, |sa|)
    ensures forall i :: 0 <= i < |sa| ==> r[i] == Merge(if i < |ta| then Some(ta[i]) else None, sa[i])
    ensures forall i :: |sa| <= i < |ta| ==> r[i] == ta[i]
    decreases sa
  {
    if |sa| == 0 then ta
    else
      var tail := if |ta| > 0 then ta[1..] else [];
      var rest := MergeItems(tail, sa[1..]);
      var r := [Merge(if |ta| > 0 then Some(ta[0]) else None, sa[0])] + rest;
      assert forall i :: 1 <= i < |r| ==> r[i] == rest[i - 1];
      assert forall i :: 1 <= i < |ta| ==> ta[i] == tail[i - 1];
      r
  }

  /**
   * `_.merge(jsonData, force)` at the top level. lodash wraps the document with
   * `Object(...)`: `null` becomes a fresh object; a string, number or boolean
   * becomes a wrapper that serializes as the original value.
   */
  function ForceMerge(doc: Json, force: seq<Member>): (r: Json)
    ensures doc.JObj? || doc.JNull? ==> r.JObj?
    ensures !doc.JObj? && !doc.JNull? ==> r == doc
    ensures doc.JNull? ==> UniqueKeys(r.members) && Keys(r.members) == NewKeys([], Keys(force))
    ensures doc.JObj? && UniqueKeys(doc.members) ==>
              UniqueKeys(r.members) && Keys(r.members) == Keys(doc.members) + NewKeys(Keys(doc.members), Keys(force))
  {
    match doc
    case JObj(tm) =>
      var r := JObj(MergeMembers(tm, force));
      if UniqueKeys(tm) then MergeMembersKeys(tm, force); r else r
    case JNull =>
      MergeMembersKeys([], force);
      assert [] + NewKeys([], Keys(force)) == NewKeys([], Keys(force));
      JObj(MergeMembers([], force))
    case _ => doc
  }

  // ---------------------------------------------------------------- defaults: lodash `_.mergeWith`

  /**
   * One step of `_.mergeWith` with the customizer of lines 29-31: it returns
   * the existing value whenever it is defined, so lodash never descends, and
   * only a missing key receives the default value.
   */
  function DefaultMember(tm: seq<Member>, m: Member): seq<Member>
  {
    if m.key in Keys(tm) then tm else tm + [m]
  }

  function DefaultMembers(tm: seq<Member>, ds: seq<Member>): seq<Member>
    decreases |ds|
  {
    if |ds| == 0 then tm else DefaultMembers(DefaultMember(tm, ds[0]), ds[1..])
  }

  /**
   * `_.mergeWith(jsonData, defaults, customizer)` at the top level: only keys
   * are added, after the document's own, which stay unique.
   */
  function DefaultsMerge(doc: Json, defaults: seq<Member>): (r: Json)
    ensures doc.JObj? || doc.JNull? ==> r.JObj?
    ensures !doc.JObj? && !doc.JNull? ==> r == doc
    ensures doc.JNull? ==> UniqueKeys(r.members) && Keys(r.members) == NewKeys([], Keys(defaults))
    ensures doc.JObj? && UniqueKeys(doc.members) ==>
              UniqueKeys(r.members) && Keys(r.members) == Keys(doc.members) + NewKeys(Keys(doc.members), Keys(defaults))
  {
    match doc
    case JObj(tm) =>
      var r := JObj(DefaultMembers(tm, defaults));
      if UniqueKeys(tm) then DefaultMembersKeys(tm, defaults); r else r
    case JNull =>
      DefaultMembersKeys([], defaults);
      assert [] + NewKeys([], Keys(defaults)) == NewKeys([], Keys(defaults));
      JObj(DefaultMembers([], defaults))
    case _ => doc
  }

  // ---------------------------------------------------------------- the action

  /** The settings `apply` reads; `None` is an absent or falsy entry. */
  datatype JsonSettings = JsonSettings(force: Option<seq<Member>>, defaults: Option<seq<Member>>)

  datatype JsonAction = JsonAction(base: Action.ActionBase, settings: JsonSettings)

  /** What `apply` did: whether it reports a modification, and what it wrote. */
  datatype Outcome = Outcome(modified: bool, written: Option<Json>)

  predicate WellFormedSettings(settings: JsonSettings) {
    && (settings.force.Some? ==> WellFormedMembers(settings.force.value))
    && (settings.defaults.Some? ==> WellFormedMembers(settings.defaults.value))
  }

  /** `init`: the base records the id "json" and the default license; the settings are kept. */
  function Init(prior: Action.ActionBase, settings: JsonSettings, defaultLicense: Action.JsValue): (r: JsonAction)
    ensures r.base.id == "json" && r.base.defaultLicense == defaultLicense
    ensures r.settings == settings
  {
    JsonAction(Action.Init(prior, "json", defaultLicense), settings)
  }

  /**
   * Lines 25-32: the force merge, then the defaults merge. Neither removes a
   * key: an object document keeps its keys first, in order, and unique.
   */
  function Transform(settings: JsonSettings, doc: Json): (r: Json)
    ensures doc.JObj? && UniqueKeys(doc.members) ==>
              r.JObj? && UniqueKeys(r.members) && Keys(doc.members) <= Keys(r.members)
    ensures settings.force.None? && settings.defaults.None? ==> r == doc
    ensures !doc.JObj? && !doc.JNull? ==> r == doc
  {
    var forced := if settings.force.Some? then ForceMerge(doc, settings.force.value) else doc;
    if settings.defaults.Some? then DefaultsMerge(forced, settings.defaults.value) else forced
  }

  /**
   * `apply` on a parsed document: the file is rewritten, and `true` returned,
   * exactly when the merged document serializes differently.
   */
  function Apply(a: JsonAction, doc: Json): (r: Outcome)
    ensures r.modified <==> r.written.Some?
    ensures r.modified <==> Transform(a.settings, doc) != doc
    ensures r.written.Some? ==> r.written.value == Transform(a.settings, doc)
  {
    var merged := Transform(a.settings, doc);
    if merged == doc then Outcome(false, None) else Outcome(true, Some(merged))
  }

  // ---------------------------------------------------------------- force merge properties

  lemma MergeMemberSpec(tm: seq<Member>, m: Member)
    requires UniqueKeys(tm)
    ensures var r := MergeMember(tm, m);
            && Keys(r) == Keys(tm) + (if m.key in Keys(tm) then [] else [m.key])
            && UniqueKeys(r)
            && forall k :: Get(r, k) == if k == m.key then Some(Merge(Get(tm, k), m.value)) else Get(tm, k)
  {
    if IndexOfKey(tm, m.key) < |tm| {
      MergeMemberUpdates(tm, m);
    } else {
      MergeMemberAppends(tm, m);
    }
  }

  lemma MergeMemberUpdates(tm: seq<Member>, m: Member)
    requires UniqueKeys(tm) && IndexOfKey(tm, m.key) < |tm|
    ensures var r := MergeMember(tm, m);
            && Keys(r) == Keys(tm) && m.key in Keys(tm)
            && UniqueKeys(r)
            && forall k :: Get(r, k) == if k == m.key then Some(Merge(Get(tm, k), m.value)) else Get(tm, k)
  {
    var r := MergeMember(tm, m);
    var i := IndexOfKey(tm, m.key);
    var v := Merge(Some(tm[i].value), m.value);
    assert r == tm[i := Member(tm[i].key, v)];
    forall k
      ensures Get(r, k) == if k == m.key then Some(Merge(Get(tm, k), m.value)) else Get(tm, k)
    {
      GetAfterUpdate(tm, i, v, k);
    }
    GetAfterUpdate(tm, i, v, m.key);
    assert forall x :: 0 <= x < |r| ==> r[x].key == tm[x].key;
  }

  lemma MergeMemberAppends(tm: seq<Member>, m: Member)
    requires UniqueKeys(tm) && IndexOfKey(tm, m.key) == |tm|
    ensures var r := MergeMember(tm, m);
            && Keys(r) == Keys(tm) + [m.key] && m.key !in Keys(tm)
            && UniqueKeys(r)
            && forall k :: Get(r, k) == if k == m.key then Some(Merge(Get(tm, k), m.value)) else Get(tm, k)
  {
    var r := MergeMember(tm, m);
    var n := Member(m.key, Merge(None, m.value));
    assert r == tm + [n];
    assert forall x :: 0 <= x < |tm| ==> tm[x].key in Keys(tm);
    forall k
      ensures Get(r, k) == if k == m.key then Some(Merge(Get(tm, k), m.value)) else Get(tm, k)
    {
      GetAfterAppend(tm, n, k);
    }
    GetAfterAppend(tm, n, m.key);
  }

  /**
   * The merged members: the target's keys in their order followed by the
   * source's new keys in source order, unique, each source key holding the
   * merge of the two values, every other key its target value.
   */
  lemma {:induction false} MergeMembersSpec(tm: seq<Member>, sm: seq<Member>)
    requires UniqueKeys(tm) && UniqueKeys(sm)
    ensures var r := MergeMembers(tm, sm);
            && Keys(r) == Keys(tm) + NewKeys(Keys(tm), Keys(sm))
            && UniqueKeys(r)
            && forall k :: Get(r, k) == if Get(sm, k).Some? then Some(Merge(Get(tm, k), Get(sm, k).value)) else Get(tm, k)
  {
    MergeMembersKeys(tm, sm);
    MergeMembersGet(tm, sm);
  }

  lemma {:induction false} MergeMembersKeys(tm: seq<Member>, sm: seq<Member>)
    requires UniqueKeys(tm)
    ensures var r := MergeMembers(tm, sm);
            Keys(r) == Keys(tm) + NewKeys(Keys(tm), Keys(sm)) && UniqueKeys(r)
    decreases sm
  {
    if |sm| > 0 {
      var m := sm[0];
      var tm' := MergeMember(tm, m);
      var rest := sm[1..];
      MergeMemberSpec(tm, m);
      MergeMembersKeys(tm', rest);
      assert MergeMembers(tm, sm) == MergeMembers(tm', rest);
      assert Keys(sm) == [m.key] + Keys(rest);
      NewKeysStep(Keys(tm), Keys(tm'), m.key, Keys(rest));
    }
  }

  lemma {:induction false} MergeMembersGet(tm: seq<Member>, sm: seq<Member>)
    requires UniqueKeys(tm) && UniqueKeys(sm)
    ensures forall k :: Get(MergeMembers(tm, sm), k) == if Get(sm, k).Some? then Some(Merge(Get(tm, k), Get(sm, k).value)) else Get(tm, k)
    decreases sm
  {
    if |sm| > 0 {
      var m := sm[0];
      var tm' := MergeMember(tm, m);
      var rest := sm[1..];
      MergeMemberSpec(tm, m);
      assert UniqueKeys(rest);
      MergeMembersGet(tm', rest);
      var r := MergeMembers(tm, sm);
      assert r == MergeMembers(tm', rest);
      assert sm == [m] + rest;
      forall k
        ensures Get(r, k) == if Get(sm, k).Some? then Some(Merge(Get(tm, k), Get(sm, k).value)) else Get(tm, k)
      {
        GetCons(m, rest, k);
        if k == m.key {
          assert forall x :: 0 <= x < |rest| ==> rest[x].key == sm[x + 1].key != sm[0].key;
          assert k !in Keys(rest);
        }
      }
    }
  }

  /** The force merge of an object document, key by key. */
  lemma ForceMergeSpec(tm: seq<Member>, force: seq<Member>)
    requires UniqueKeys(tm) && UniqueKeys(force)
    ensures ForceMerge(JObj(tm), force).JObj?
    ensures var r := ForceMerge(JObj(tm), force).members;
            && Keys(r) == Keys(tm) + NewKeys(Keys(tm), Keys(force))
            && (forall k :: k !in Keys(force) ==> Get(r, k) == Get(tm, k))
            && (forall k :: k in Keys(force) ==> Get(r, k) == Some(Merge(Get(tm, k), Get(force, k).value)))
  {
    MergeMembersSpec(tm, force);
  }

  /**
   * Where document and force both hold objects under `k`, a nested document
   * key the force object does not mention keeps its value: the merge recurses.
   */
  lemma ForceMergeKeepsNestedKeys(tm: seq<Member>, force: seq<Member>, k: string, k': string)
    requires UniqueKeys(tm) && WellFormedMembers(force)
    requires Get(tm, k).Some? && Get(tm, k).value.JObj? && UniqueKeys(Get(tm, k).value.members)
    requires Get(force, k).Some? && Get(force, k).value.JObj?
    requires k' !in Keys(Get(force, k).value.members)
    ensures Lookup(ForceMerge(JObj(tm), force), [k, k']) == Lookup(JObj(tm), [k, k'])
  {
    var r := MergeMembers(tm, force);
    var dm := Get(tm, k).value.members;
    var fm := Get(force, k).value.members;
    MergeMembersSpec(tm, force);
    assert Get(r, k) == Some(Merge(Some(JObj(dm)), JObj(fm)));
    assert Merge(Some(JObj(dm)), JObj(fm)) == JObj(MergeMembers(dm, fm));
    GetWellFormed(force, k);
    MergeMembersSpec(dm, fm);
    assert Get(MergeMembers(dm, fm), k') == Get(dm, k');
    assert [k, k'][0] == k && [k, k'][1..] == [k'];
    assert Lookup(JObj(r), [k, k']) == Lookup(JObj(MergeMembers(dm, fm)), [k']);
    assert Lookup(JObj(tm), [k, k']) == Lookup(JObj(dm), [k']);
  }

  /** No array stands in the target where the path needs an object. */
  predicate ArrayFree(t: Option<Json>, path: seq<string>)
    decreases path
  {
    if |path| == 0 then true
    else if t.Some? && t.value.JArr? then false
    else if t.Some? && t.value.JObj? then ArrayFree(Get(t.value.members, path[0]), path[1..])
    else true
  }

  /** A scalar the source holds at a path is what the merged value holds there. */
  lemma {:induction false} MergeScalarWins(t: Option<Json>, src: Json, path: seq<string>)
    requires WellFormedSlot(t) && WellFormed(src)
    requires Lookup(src, path).Some? && IsScalar(Lookup(src, path).value)
    requires ArrayFree(t, path)
    ensures Lookup(Merge(t, src), path) == Lookup(src, path)
    decreases path
  {
    if |path| > 0 {
      var sm := src.members;
      var v := Get(sm, path[0]).value;
      var base := if t.Some? && t.value.JObj? then t.value.members else [];
      assert WellFormedMembers(base);
      assert Merge(t, src) == JObj(MergeMembers(base, sm));
      MergeMembersSpec(base, sm);
      GetWellFormed(sm, path[0]);
      if t.Some? && t.value.JObj? {
        GetWellFormed(base, path[0]);
      }
      MergeScalarWins(Get(base, path[0]), v, path[1..]);
    }
  }

  /** After the force merge every scalar of `force` is at the same key path in the document. */
  lemma ForceScalarWins(doc: Json, force: seq<Member>, path: seq<string>)
    requires doc.JObj? || doc.JNull?
    requires WellFormed(doc) && WellFormedMembers(force)
    requires Lookup(JObj(force), path).Some? && IsScalar(Lookup(JObj(force), path).value)
    requires ArrayFree(Some(doc), path)
    ensures Lookup(ForceMerge(doc, force), path) == Lookup(JObj(force), path)
  {
    assert ForceMerge(doc, force) == Merge(Some(doc), JObj(force));
    MergeScalarWins(Some(doc), JObj(force), path);
  }

  // ---------------------------------------------------------------- copies

  /**
   * A source value reaching a missing or scalar slot is copied whole, at every
   * depth: lodash clones a source object or array into a fresh one and merges
   * into that.
   */
  lemma {:induction false} MergeCopies(t: Option<Json>, src: Json)
    requires WellFormed(src) && (t.None? || IsScalar(t.value))
    ensures Merge(t, src) == src
    decreases src, 1
  {
    match src
    case JObj(_) => MergeCopiesMembers(src);
    case JArr(_) => MergeCopiesItems(src);
    case _ =>
  }

  lemma {:induction false} MergeCopiesMembers(src: Json)
    requires src.JObj? && WellFormed(src)
    ensures MergeMembers([], src.members) == src.members
    decreases src, 0
  {
    var sm := src.members;
    assert WellFormedMembers(sm);
    var r := MergeMembers([], sm);
    MergeMembersSpec([], sm);
    NewKeysOfFresh([], Keys(sm));
    assert Keys(r) == Keys(sm);
    forall k
      ensures Get(r, k) == Get(sm, k)
    {
      if Get(sm, k).Some? {
        var j := IndexOfKey(sm, k);
        MergeCopies(None, sm[j].value);
      }
    }
    MembersExtensional(r, sm);
  }

  lemma {:induction false} MergeCopiesItems(src: Json)
    requires src.JArr? && WellFormed(src)
    ensures MergeItems([], src.items) == src.items
    decreases src, 0
  {
    var sa := src.items;
    var r := MergeItems([], sa);
    forall i | 0 <= i < |sa|
      ensures r[i] == sa[i]
    {
      MergeCopies(None, sa[i]);
    }
  }

  /** A forced key the document lacks arrives with the forced value exactly. */
  lemma ForceAddsNewKeys(tm: seq<Member>, force: seq<Member>, k: string)
    requires UniqueKeys(tm) && WellFormedMembers(force)
    requires k !in Keys(tm) && k in Keys(force)
    ensures Get(ForceMerge(JObj(tm), force).members, k) == Get(force, k)
  {
    ForceMergeSpec(tm, force);
    GetWellFormed(force, k);
    MergeCopies(None, Get(force, k).value);
  }

  // ---------------------------------------------------------------- well-formedness

  lemma {:induction false} MergeWellFormed(t: Option<Json>, src: Json)
    requires WellFormedSlot(t) && WellFormed(src)
    ensures WellFormed(Merge(t, src))
    decreases src, 1
  {
    match src
    case JObj(_) =>
      if !(t.Some? && t.value.JArr?) {
        MergeWellFormedMembers(if t.Some? && t.value.JObj? then t.value.members else [], src);
      }
    case JArr(sa) =>
      var ta := if t.Some? && t.value.JArr? then t.value.items else [];
      var r := MergeItems(ta, sa);
      forall i | 0 <= i < |r|
        ensures WellFormed(r[i])
      {
        if i < |sa| {
          MergeWellFormed(if i < |ta| then Some(ta[i]) else None, sa[i]);
        }
      }
    case _ =>
  }

  /** The object case: every merged member holds a well-formed value. */
  lemma {:induction false} MergeWellFormedMembers(base: seq<Member>, src: Json)
    requires WellFormedMembers(base) && src.JObj? && WellFormed(src)
    ensures WellFormedMembers(MergeMembers(base, src.members))
    decreases src, 0
  {
    var sm := src.members;
    assert WellFormedMembers(sm);
    var r := MergeMembers(base, sm);
    MergeMembersSpec(base, sm);
    forall i | 0 <= i < |r|
      ensures WellFormed(r[i].value)
    {
      var k := r[i].key;
      GetUnique(r, i);
      GetWellFormed(base, k);
      var j := IndexOfKey(sm, k);
      if j < |sm| {
        MergeWellFormed(Get(base, k), sm[j].value);
      }
    }
  }

  // ---------------------------------------------------------------- idempotence

  /** Merging the same source a second time changes nothing. */
  lemma {:induction false} MergeIdempotent(t: Option<Json>, src: Json)
    requires WellFormedSlot(t) && WellFormed(src)
    ensures Merge(Some(Merge(t, src)), src) == Merge(t, src)
    decreases src, 1
  {
    match src
    case JObj(sm) =>
      if !(t.Some? && t.value.JArr?) {
        MergeIdempotentMembers(if t.Some? && t.value.JObj? then t.value.members else [], src);
      }
    case JArr(sa) =>
      MergeIdempotentItems(if t.Some? && t.value.JArr? then t.value.items else [], src);
    case _ =>
  }

  lemma {:induction false} MergeIdempotentMembers(base: seq<Member>, src: Json)
    requires src.JObj? && WellFormedMembers(base) && WellFormed(src)
    ensures MergeMembers(MergeMembers(base, src.members), src.members) == MergeMembers(base, src.members)
    decreases src, 0
  {
    var sm := src.members;
    assert WellFormedMembers(sm);
    var r := MergeMembers(base, sm);
    MergeMembersSpec(base, sm);
    forall k | k in Keys(sm)
      ensures Get(r, k).Some? && Merge(Get(r, k), Get(sm, k).value) == Get(r, k).value
    {
      var j := IndexOfKey(sm, k);
      GetWellFormed(base, k);
      MergeIdempotent(Get(base, k), sm[j].value);
    }
    MergeMembersFixed(r, sm);
  }

  lemma {:induction false} MergeIdempotentItems(ta: seq<Json>, src: Json)
    requires src.JArr? && WellFormed(JArr(ta)) && WellFormed(src)
    ensures MergeItems(MergeItems(ta, src.items), src.items) == MergeItems(ta, src.items)
    decreases src, 0
  {
    var sa := src.items;
    var r := MergeItems(ta, sa);
    var r2 := MergeItems(r, sa);
    assert |r2| == |r|;
    forall i | 0 <= i < |r|
      ensures r2[i] == r[i]
    {
      if i < |sa| {
        var t := if i < |ta| then Some(ta[i]) else None;
        assert WellFormedSlot(t) && WellFormed(sa[i]);
        MergeIdempotent(t, sa[i]);
        assert r[i] == Merge(t, sa[i]);
        assert r2[i] == Merge(Some(r[i]), sa[i]);
      } else {
        assert r2[i] == r[i];
      }
    }
    assert r2 == r;
  }

  /** Members that already hold the merge of every source value are left as they are. */
  lemma MergeMembersFixed(r: seq<Member>, sm: seq<Member>)
    requires UniqueKeys(r) && UniqueKeys(sm)
    requires forall k :: k in Keys(sm) ==> Get(r, k).Some? && Merge(Get(r, k), Get(sm, k).value) == Get(r, k).value
    ensures MergeMembers(r, sm) == r
  {
    MergeMembersSpec(r, sm);
    NewKeysOfPresent(Keys(r), Keys(sm));
    assert Keys(r) + [] == Keys(r);
    MembersExtensional(MergeMembers(r, sm), r);
  }

  // ---------------------------------------------------------------- defaults merge properties

  lemma DefaultMemberSpec(tm: seq<Member>, m: Member)
    requires UniqueKeys(tm)
    ensures var r := DefaultMember(tm, m);
            && Keys(r) == Keys(tm) + (if m.key in Keys(tm) then [] else [m.key])
            && UniqueKeys(r)
            && forall k :: Get(r, k) == if Get(tm, k).Some? then Get(tm, k) else if k == m.key then Some(m.value) else None
  {
    if m.key !in Keys(tm) {
      forall k
        ensures Get(tm + [m], k) == if Get(tm, k).Some? then Get(tm, k) else if k == m.key then Some(m.value) else None
      {
        GetAfterAppend(tm, m, k);
      }
    }
    DefaultMemberKeys(tm, m);
  }

  lemma DefaultMemberKeys(tm: seq<Member>, m: Member)
    requires UniqueKeys(tm)
    ensures var r := DefaultMember(tm, m);
            Keys(r) == Keys(tm) + (if m.key in Keys(tm) then [] else [m.key]) && UniqueKeys(r)
  {
    if m.key !in Keys(tm) {
      var r := tm + [m];
      assert Keys(r) == Keys(tm) + [m.key];
      assert forall x :: 0 <= x < |tm| ==> tm[x].key in Keys(tm);
    }
  }

  /**
   * The defaults merge: the target's keys in their order followed by the new
   * default keys, unique; a present key keeps its value whatever it is, a
   * missing key receives the default.
   */
  lemma {:induction false} DefaultMembersSpec(tm: seq<Member>, ds: seq<Member>)
    requires UniqueKeys(tm)
    ensures var r := DefaultMembers(tm, ds);
            && Keys(r) == Keys(tm) + NewKeys(Keys(tm), Keys(ds))
            && UniqueKeys(r)
            && forall k :: Get(r, k) == if Get(tm, k).Some? then Get(tm, k) else Get(ds, k)
  {
    DefaultMembersKeys(tm, ds);
    DefaultMembersGet(tm, ds);
  }

  lemma {:induction false} DefaultMembersKeys(tm: seq<Member>, ds: seq<Member>)
    requires UniqueKeys(tm)
    ensures var r := DefaultMembers(tm, ds);
            Keys(r) == Keys(tm) + NewKeys(Keys(tm), Keys(ds)) && UniqueKeys(r)
    decreases |ds|
  {
    if |ds| > 0 {
      var m := ds[0];
      var tm' := DefaultMember(tm, m);
      var rest := ds[1..];
      DefaultMemberKeys(tm, m);
      DefaultMembersKeys(tm', rest);
      assert DefaultMembers(tm, ds) == DefaultMembers(tm', rest);
      assert Keys(ds) == [m.key] + Keys(rest);
      NewKeysStep(Keys(tm), Keys(tm'), m.key, Keys(rest));
    }
  }

  lemma {:induction false} DefaultMembersGet(tm: seq<Member>, ds: seq<Member>)
    requires UniqueKeys(tm)
    ensures forall k :: Get(DefaultMembers(tm, ds), k) == if Get(tm, k).Some? then Get(tm, k) else Get(ds, k)
    decreases |ds|
  {
    if |ds| > 0 {
      var m := ds[0];
      var tm' := DefaultMember(tm, m);
      var rest := ds[1..];
      DefaultMemberSpec(tm, m);
      DefaultMembersGet(tm', rest);
      var r := DefaultMembers(tm, ds);
      assert r == DefaultMembers(tm', rest);
      assert ds == [m] + rest;
      forall k
        ensures Get(r, k) == if Get(tm, k).Some? then Get(tm, k) else Get(ds, k)
      {
        GetCons(m, rest, k);
        if Get(tm, k).None? {
          if k == m.key {
            assert Get(tm', k) == Some(m.value);
          } else {
            assert Get(tm', k) == None;
          }
        }
      }
    }
  }

  /** In the defaults merge a present key keeps its value, including `null`, `false`, `0` and partial objects. */
  lemma DefaultsKeepPresent(tm: seq<Member>, defaults: seq<Member>, k: string)
    requires UniqueKeys(tm) && k in Keys(tm)
    ensures DefaultsMerge(JObj(tm), defaults).JObj?
    ensures Get(DefaultsMerge(JObj(tm), defaults).members, k) == Get(tm, k)
  {
    DefaultMembersSpec(tm, defaults);
  }

  /** In the defaults merge a missing key receives the default value, after the existing keys. */
  lemma DefaultsAddMissing(tm: seq<Member>, defaults: seq<Member>, k: string)
    requires UniqueKeys(tm) && k !in Keys(tm) && k in Keys(defaults)
    ensures var r := DefaultsMerge(JObj(tm), defaults).members;
            && Get(r, k) == Get(defaults, k)
            && Keys(tm) <= Keys(r)
            && k in Keys(r)[|tm|..]
  {
    DefaultMembersSpec(tm, defaults);
    NewKeysFresh(Keys(tm), Keys(defaults));
    var r := DefaultsMerge(JObj(tm), defaults).members;
    assert Keys(r)[|tm|..] == NewKeys(Keys(tm), Keys(defaults));
  }

  lemma DefaultMembersFixed(r: seq<Member>, ds: seq<Member>)
    requires UniqueKeys(r)
    requires forall k :: k in Keys(ds) ==> k in Keys(r)
    ensures DefaultMembers(r, ds) == r
  {
    DefaultMembersSpec(r, ds);
    NewKeysOfPresent(Keys(r), Keys(ds));
    assert Keys(r) + [] == Keys(r);
    MembersExtensional(DefaultMembers(r, ds), r);
  }

  // ---------------------------------------------------------------- the action's properties

  /** Running the action on its own output finds nothing to do. */
  lemma TransformIdempotent(settings: JsonSettings, doc: Json)
    requires WellFormed(doc) && WellFormedSettings(settings)
    ensures Transform(settings, Transform(settings, doc)) == Transform(settings, doc)
  {
    if doc.JObj? || (doc.JNull? && (settings.force.Some? || settings.defaults.Some?)) {
      var base := if doc.JObj? then doc.members else [];
      var x := if settings.force.Some? then MergeMembers(base, settings.force.value) else base;
      var y := if settings.defaults.Some? then DefaultMembers(x, settings.defaults.value) else x;
      assert Transform(settings, doc) == JObj(y);
      if settings.force.Some? {
        var f := settings.force.value;
        MergeMembersSpec(base, f);
        NewKeysFresh(Keys(base), Keys(f));
      }
      if settings.defaults.Some? {
        DefaultMembersSpec(x, settings.defaults.value);
        NewKeysFresh(Keys(x), Keys(settings.defaults.value));
      }
      var y' := if settings.force.Some? then MergeMembers(y, settings.force.value) else y;
      if settings.force.Some? {
        var f := settings.force.value;
        forall k | k in Keys(f)
          ensures Get(y, k).Some? && Merge(Get(y, k), Get(f, k).value) == Get(y, k).value
        {
          var j := IndexOfKey(f, k);
          GetWellFormed(base, k);
          MergeIdempotent(Get(base, k), f[j].value);
        }
        MergeMembersFixed(y, f);
      }
      assert y' == y;
      if settings.defaults.Some? {
        DefaultMembersFixed(y, settings.defaults.value);
      }
    }
  }

  /** A second run of `apply` on the file the first run wrote reports no modification and writes nothing. */
  lemma ApplyTwice(a: JsonAction, doc: Json)
    requires WellFormed(doc) && WellFormedSettings(a.settings)
    ensures var first := Apply(a, doc);
            first.modified ==> Apply(a, first.written.value) == Outcome(false, None)
  {
    TransformIdempotent(a.settings, doc);
  }
}

module JsonMergeExamples {
  import opened Wrappers
  import opened Json
  import opened JsonMerge

  /** `{"a":1,"b":{"c":2}}` forced with `{"b":{"c":3}}` gives `{"a":1,"b":{"c":3}}`, and a second run is a no-op. */
  lemma ForceExample(a: JsonAction)
    requires a.settings == JsonSettings(Some([Member("b", JObj([Member("c", JNum(3))]))]), None)
    ensures var doc := JObj([Member("a", JNum(1)), Member("b", JObj([Member("c", JNum(2))]))]);
            var want := JObj([Member("a", JNum(1)), Member("b", JObj([Member("c", JNum(3))]))]);
            Apply(a, doc) == Outcome(true, Some(want)) && Apply(a, want) == Outcome(false, None)
  {
    var c2, c3 := [Member("c", JNum(2))], [Member("c", JNum(3))];
    assert IndexOfKey(c2, "c") == 0 && IndexOfKey(c3, "c") == 0;
    assert MergeMembers(c2, c3) == MergeMember(c2, c3[0]) == c3;
    assert MergeMembers(c3, c3) == MergeMember(c3, c3[0]) == c3;
    var force := [Member("b", JObj(c3))];
    var doc := [Member("a", JNum(1)), Member("b", JObj(c2))];
    var want := [Member("a", JNum(1)), Member("b", JObj(c3))];
    assert IndexOfKey(doc, "b") == 1 && IndexOfKey(want, "b") == 1;
    assert MergeMembers(doc, force) == MergeMember(doc, force[0]) == want;
    assert MergeMembers(want, force) == MergeMember(want, force[0]) == want;
  }

  /** `{"a":1}` with defaults `{"a":2,"b":3}` gives `{"a":1,"b":3}`. */
  lemma DefaultsExample(a: JsonAction)
    requires a.settings == JsonSettings(None, Some([Member("a", JNum(2)), Member("b", JNum(3))]))
    ensures Apply(a, JObj([Member("a", JNum(1))])) == Outcome(true, Some(JObj([Member("a", JNum(1)), Member("b", JNum(3))])))
  {
    var doc := [Member("a", JNum(1))];
    var ds := [Member("a", JNum(2)), Member("b", JNum(3))];
    assert Keys(doc) == ["a"];
    assert "b" !in Keys(doc) && "a" in Keys(doc);
    assert DefaultMember(doc, ds[0]) == doc;
    assert ds[1..] == [ds[1]] && ds[2..] == [];
    assert DefaultMember(doc, ds[1]) == doc + [ds[1]];
    assert DefaultMembers(doc, ds) == DefaultMembers(doc + [ds[1]], ds[2..]) == doc + [ds[1]];
    assert Transform(a.settings, JObj(doc)) == JObj(doc + [ds[1]]);
    assert |doc + [ds[1]]| != |doc|;
    assert doc + [ds[1]] == [Member("a", JNum(1)), Member("b", JNum(3))];
    assert Apply(a, JObj(doc)) == Outcome(true, Some(JObj(doc + [ds[1]])));
  }

  /** A present `null` is kept by the defaults merge but overwritten by the force merge. */
  lemma NullExample()
    ensures DefaultsMerge(JObj([Member("a", JNull)]), [Member("a", JNum(2))]) == JObj([Member("a", JNull)])
    ensures ForceMerge(JObj([Member("a", JNum(1))]), [Member("a", JNull)]) == JObj([Member("a", JNull)])
  {
    assert Keys([Member("a", JNull)]) == ["a"];
    assert DefaultMember([Member("a", JNull)], Member("a", JNum(2))) == [Member("a", JNull)];
    assert DefaultMembers([Member("a", JNull)], [Member("a", JNum(2))]) == [Member("a", JNull)];
    assert IndexOfKey([Member("a", JNum(1))], "a") == 0;
    assert MergeMember([Member("a", JNum(1))], Member("a", JNull)) == [Member("a", JNull)];
    assert MergeMembers([Member("a", JNum(1))], [Member("a", JNull)]) == [Member("a", JNull)];
  }

  /** A forced array replaces a scalar. */
  lemma ArrayReplacesScalar()
    ensures ForceMerge(JObj([Member("a", JNum(1))]), [Member("a", JArr([JNum(3)]))])
            == JObj([Member("a", JArr([JNum(3)]))])
  {
    assert IndexOfKey([Member("a", JNum(1))], "a") == 0;
    MergeCopies(Some(JNum(1)), JArr([JNum(3)]));
  }

  /** A forced array merges index by index into an array. */
  lemma ArrayExample()
    ensures ForceMerge(JObj([Member("a", JArr([JNum(1), JNum(2)]))]), [Member("a", JArr([JNum(3)]))])
            == JObj([Member("a", JArr([JNum(3), JNum(2)]))])
  {
    var items := MergeItems([JNum(1), JNum(2)], [JNum(3)]);
    assert |items| == 2 && items[0] == JNum(3) && items[1] == JNum(2);
    assert items == [JNum(3), JNum(2)];
    var tm := [Member("a", JArr([JNum(1), JNum(2)]))];
    assert IndexOfKey(tm, "a") == 0;
  }
}

=== FILE: lines.dfy ===
/**
 * The line helpers of the text actions (src/actions/textAction.js): splitting a
 * text into lines, JavaScript's `trimEnd`, the two blank-last-line rules and
 * joining with the platform line terminator.
 */
module Lines {
  import opened Wrappers

  // ---------------------------------------------------------------- characters

  /** The code points `String.prototype.trimEnd` removes: WhiteSpace and LineTerminator. */
  predicate IsWhitespace(c: char) {
    || c == '\t' || c == '\n' || c == '\U{000B}' || c == '\U{000C}' || c == '\r' || c == ' '
    || c == '\U{00A0}' || c == '\U{1680}' || ('\U{2000}' <= c <= '\U{200A}')
    || c == '\U{2028}' || c == '\U{2029}' || c == '\U{202F}' || c == '\U{205F}'
    || c == '\U{3000}' || c == '\U{FEFF}'
  }

  /** The characters the split pattern `\r\n|\r|\n` is made of. */
  predicate IsBreak(c: char) {
    c == '\r' || c == '\n'
  }

  predicate HasNoBreak(s: string) {
    forall i :: 0 <= i < |s| ==> !IsBreak(s[i])
  }

  predicate AllHaveNoBreak(lines: seq<string>) {
    forall i :: 0 <= i < |lines| ==> HasNoBreak(lines[i])
  }

  /** No trailing whitespace. */
  predicate IsTrimmed(s: string) {
    |s| == 0 || !IsWhitespace(s[|s| - 1])
  }

  predicate AllTrimmed(lines: seq<string>) {
    forall i :: 0 <= i < |lines| ==> IsTrimmed(lines[i])
  }

  /** The line terminators `os.EOL` can be. */
  predicate IsPlatformEol(eol: string) {
    eol == "\n" || eol == "\r\n"
  }

  // ---------------------------------------------------------------- trimEnd

  /** `s.trimEnd()`: the longest prefix of `s` that does not end in whitespace. */
  function TrimEnd(s: string): (r: string)
    ensures r <= s
    ensures IsTrimmed(r)
    ensures forall i :: |r| <= i < |s| ==> IsWhitespace(s[i])
  {
    if |s| > 0 && IsWhitespace(s[|s| - 1]) then TrimEnd(s[..|s| - 1]) else s
  }

  /** `s.trimEnd() === ''`. */
  predicate IsBlank(s: string) {
    TrimEnd(s) == ""
  }

  lemma BlankIffAllWhitespace(s: string)
    ensures IsBlank(s) <==> forall i :: 0 <= i < |s| ==> IsWhitespace(s[i])
  {
  }

  lemma TrimmedBlankIsEmpty(s: string)
    requires IsTrimmed(s)
    ensures IsBlank(s) <==> s == ""
  {
  }

  // ---------------------------------------------------------------- splitting

  /** The number of matches of `\r\n|\r|\n` in `s`, a `\r\n` pair counting once. */
  function BreakCount(s: string): nat
  {
    if |s| == 0 then 0
    else if |s| > 1 && s[0] == '\r' && s[1] == '\n' then 1 + BreakCount(s[2..])
    else if IsBreak(s[0]) then 1 + BreakCount(s[1..])
    else BreakCount(s[1..])
  }

  /**
   * `s.split(/\r\n|\r|\n/)`. The regular expression tries `\r\n` before `\r`,
   * so a CR LF pair is one break.
   */
  function GetLines(s: string): (r: seq<string>)
    ensures |r| == BreakCount(s) + 1
    ensures AllHaveNoBreak(r)
  {
    if |s| == 0 then [""]
    else if |s| > 1 && s[0] == '\r' && s[1] == '\n' then [""] + GetLines(s[2..])
    else if IsBreak(s[0]) then [""] + GetLines(s[1..])
    else
      var rest := GetLines(s[1..]);
      [[s[0]] + rest[0]] + rest[1..]
  }

  // ---------------------------------------------------------------- blank last line

  /** The list without its last line when that line is blank. */
  function DropBlankLast(lines: seq<string>): (r: seq<string>)
    ensures r <= lines
    ensures |lines| - 1 <= |r|
    ensures |r| < |lines| <==> |lines| > 0 && IsBlank(lines[|lines| - 1])
  {
    if |lines| > 0 && IsBlank(lines[|lines| - 1]) then lines[..|lines| - 1] else lines
  }

  /**
   * `stripLastLineIfBlank`: `None` is the TypeError JavaScript raises when it
   * reads the last element of an empty list.
   */
  function StripLastLineIfBlank(lines: seq<string>): (r: Option<seq<string>>)
    ensures r.Some? <==> |lines| > 0
    ensures r.Some? ==> r.value <= lines && |lines| - 1 <= |r.value|
    ensures r.Some? ==> (|r.value| < |lines| <==> IsBlank(lines[|lines| - 1]))
  {
    if |lines| == 0 then None else Some(DropBlankLast(lines))
  }

  /** `ensureBlankLastLine`: `None` is the TypeError on an empty list. */
  function EnsureBlankLastLine(lines: seq<string>): (r: Option<seq<string>>)
    ensures r.Some? <==> |lines| > 0
    ensures r.Some? ==> lines <= r.value && |r.value| <= |lines| + 1
    ensures r.Some? ==> IsBlank(r.value[|r.value| - 1])
    ensures r.Some? ==> (|r.value| == |lines| <==> IsBlank(lines[|lines| - 1]))
    ensures r.Some? && |r.value| > |lines| ==> r.value[|lines|] == ""
  {
    if |lines| == 0 then None
    else if IsBlank(lines[|lines| - 1]) then Some(lines)
    else Some(lines + [""])
  }

  lemma EnsureBlankLastLineIdempotent(lines: seq<string>)
    requires |lines| > 0
    ensures EnsureBlankLastLine(EnsureBlankLastLine(lines).value) == EnsureBlankLastLine(lines)
  {
  }

  // ---------------------------------------------------------------- joining

  /** `lines.join(sep)`. */
  function Join(lines: seq<string>, sep: string): string
  {
    if |lines| == 0 then ""
    else if |lines| == 1 then lines[0]
    else lines[0] + sep + Join(lines[1..], sep)
  }

  /** Every line followed by `eol`. */
  function Terminate(lines: seq<string>, eol: string): string
  {
    if |lines| == 0 then "" else lines[0] + eol + Terminate(lines[1..], eol)
  }

  lemma {:induction false} TerminateAppend(a: seq<string>, b: seq<string>, eol: string)
    ensures Terminate(a + b, eol) == Terminate(a, eol) + Terminate(b, eol)
  {
    if |a| > 0 {
      assert (a + b)[1..] == a[1..] + b;
      TerminateAppend(a[1..], b, eol);
    } else {
      assert a + b == b;
    }
  }

  /** Joining a list whose last line is empty terminates every other line. */
  lemma {:induction false} JoinWithEmptyLast(lines: seq<string>, eol: string)
    ensures Join(lines + [""], eol) == Terminate(lines, eol)
  {
    if |lines| == 0 {
      assert lines + [""] == [""];
    } else {
      assert (lines + [""])[1..] == lines[1..] + [""];
      JoinWithEmptyLast(lines[1..], eol);
    }
  }

  /**
   * For trimmed lines, joining after `ensureBlankLastLine` is the same as
   * terminating every line once a blank last line is dropped: a joined
   * segment is empty or ends with the line terminator.
   */
  lemma JoinEnsured(lines: seq<string>, eol: string)
    requires |lines| > 0 && AllTrimmed(lines)
    ensures Join(EnsureBlankLastLine(lines).value, eol) == Terminate(DropBlankLast(lines), eol)
  {
    var n := |lines|;
    if IsBlank(lines[n - 1]) {
      TrimmedBlankIsEmpty(lines[n - 1]);
      assert lines == lines[..n - 1] + [""];
      JoinWithEmptyLast(lines[..n - 1], eol);
    } else {
      JoinWithEmptyLast(lines, eol);
    }
  }

  lemma {:induction false} TerminateEmptyOrEndsWithEol(lines: seq<string>, eol: string)
    ensures var t := Terminate(lines, eol);
            (t == "" && (|lines| == 0 || (|lines| == 1 && lines[0] == "" && eol == "")))
            || (|eol| <= |t| && t[|t| - |eol|..] == eol)
  {
    if |lines| > 0 {
      TerminateEmptyOrEndsWithEol(lines[1..], eol);
      var t := Terminate(lines, eol);
      var rest := Terminate(lines[1..], eol);
      assert t == lines[0] + eol + rest;
      if |eol| <= |rest| && rest[|rest| - |eol|..] == eol {
        assert t[|t| - |eol|..] == rest[|rest| - |eol|..];
      } else {
        assert rest == "";
        assert t == lines[0] + eol;
        assert t[|t| - |eol|..] == eol;
      }
    }
  }

  // ---------------------------------------------------------------- round trips

  /** A line without breaks followed by a platform terminator splits off as one line. */
  lemma {:induction false} GetLinesOfTerminatedLine(line: string, eol: string, rest: string)
    requires HasNoBreak(line) && IsPlatformEol(eol)
    ensures GetLines(line + eol + rest) == [line] + GetLines(rest)
  {
    var s := line + eol + rest;
    if |line| == 0 {
      assert s == eol + rest;
      if eol == "\n" {
        assert s[1..] == rest;
      } else {
        assert s[2..] == rest;
      }
    } else {
      assert s[0] == line[0] && !IsBreak(s[0]);
      assert s[1..] == line[1..] + eol + rest;
      GetLinesOfTerminatedLine(line[1..], eol, rest);
      var tail := GetLines(s[1..]);
      assert tail[0] == line[1..] && tail[1..] == GetLines(rest);
      assert GetLines(s) == [[s[0]] + tail[0]] + tail[1..];
      assert [s[0]] + line[1..] == line;
    }
  }

  /** A line without breaks is one line. */
  lemma {:induction false} GetLinesOfSingleLine(line: string)
    requires HasNoBreak(line)
    ensures GetLines(line) == [line]
  {
    if |line| > 0 {
      GetLinesOfSingleLine(line[1..]);
      assert [line[0]] + line[1..] == line;
    }
  }

  /** Splitting undoes joining with a platform terminator. */
  lemma {:induction false} GetLinesOfJoin(lines: seq<string>, eol: string)
    requires |lines| > 0 && AllHaveNoBreak(lines) && IsPlatformEol(eol)
    ensures GetLines(Join(lines, eol)) == lines
  {
    if |lines| == 1 {
      GetLinesOfSingleLine(lines[0]);
    } else {
      GetLinesOfJoin(lines[1..], eol);
      GetLinesOfTerminatedLine(lines[0], eol, Join(lines[1..], eol));
      assert [lines[0]] + lines[1..] == lines;
    }
  }

  /** Splitting a terminated list gives the lines back followed by one empty line. */
  lemma GetLinesOfTerminate(lines: seq<string>, eol: string)
    requires AllHaveNoBreak(lines) && IsPlatformEol(eol)
    ensures GetLines(Terminate(lines, eol)) == lines + [""]
  {
    JoinWithEmptyLast(lines, eol);
    assert AllHaveNoBreak(lines + [""]);
    GetLinesOfJoin(lines + [""], eol);
  }

  /** Joining with LF undoes splitting a text that has no CR. */
  lemma {:induction false} JoinOfGetLines(s: string)
    requires forall i :: 0 <= i < |s| ==> s[i] != '\r'
    ensures Join(GetLines(s), "\n") == s
  {
    if |s| > 0 {
      var rest := GetLines(s[1..]);
      JoinOfGetLines(s[1..]);
      if s[0] == '\n' {
        assert GetLines(s) == [""] + rest;
        assert ([""] + rest)[1..] == rest;
        assert s == "\n" + s[1..];
      } else {
        assert GetLines(s) == [[s[0]] + rest[0]] + rest[1..];
        assert s == [s[0]] + s[1..];
        if |rest| > 1 {
          assert Join(rest, "\n") == rest[0] + "\n" + Join(rest[1..], "\n");
        }
      }
    }
  }
}

=== FILE: text_action.dfy ===
/**
 * Initialisation of the header and footer actions (src/actions/textAction.js):
 * validation of the settings and construction of the full license block,
 * `startBlock + license lines + endBlock`, each part split into lines,
 * trimmed, given a blank last line and joined with the platform terminator.
 */
module TextAction {
  import opened Wrappers
  import opened Lines
  import opened Action

  /** The action settings the text actions read; any of them may be absent. */
  datatype TextSettings = TextSettings(startBlock: JsValue, endBlock: JsValue, linePrefix: JsValue, license: JsValue)

  /** A text action after `init`. */
  datatype TextAction = TextAction(
    base: ActionBase,
    linePrefix: JsValue,
    startBlock: string,
    endBlock: string,
    fullLicenseBlock: string)

  /** The check of lines 12-14: settings present and both markers strings. */
  predicate MarkersAreStrings(settings: Option<TextSettings>) {
    settings.Some? && settings.value.startBlock.Str? && settings.value.endBlock.Str?
  }

  /** `lines.map(l => l.trimEnd())`. */
  function TrimAll(lines: seq<string>): (r: seq<string>)
    ensures |r| == |lines|
    ensures forall i :: 0 <= i < |lines| ==> r[i] == TrimEnd(lines[i])
  {
    seq(|lines|, i requires 0 <= i < |lines| => TrimEnd(lines[i]))
  }

  /** `lines.map(l => (prefix + l).trimEnd())`. */
  function PrefixAll(prefix: string, lines: seq<string>): (r: seq<string>)
    ensures |r| == |lines|
    ensures forall i :: 0 <= i < |lines| ==> r[i] == TrimEnd(prefix + lines[i])
  {
    seq(|lines|, i requires 0 <= i < |lines| => TrimEnd(prefix + lines[i]))
  }

  lemma TrimmedLinesHaveNoBreak(lines: seq<string>)
    requires AllHaveNoBreak(lines)
    ensures AllHaveNoBreak(TrimAll(lines)) && AllTrimmed(TrimAll(lines))
  {
    var r := TrimAll(lines);
    forall i | 0 <= i < |r|
      ensures HasNoBreak(r[i])
    {
      assert r[i] <= lines[i];
    }
  }

  lemma PrefixedLinesHaveNoBreak(prefix: string, lines: seq<string>)
    requires HasNoBreak(prefix) && AllHaveNoBreak(lines)
    ensures AllHaveNoBreak(PrefixAll(prefix, lines))
  {
    var r := PrefixAll(prefix, lines);
    forall i | 0 <= i < |r|
      ensures HasNoBreak(r[i])
    {
      assert r[i] <= prefix + lines[i];
      assert HasNoBreak(prefix + lines[i]);
    }
  }

  /**
   * The segment built from a marker (lines 20-26): its trimmed lines, a blank
   * last one dropped, every line terminated by `eol`.
   */
  function MarkerSegment(marker: string, eol: string): (r: string)
    ensures r == Terminate(DropBlankLast(TrimAll(GetLines(marker))), eol)
  {
    var lines := TrimAll(GetLines(marker));
    JoinEnsured(lines, eol);
    Join(EnsureBlankLastLine(lines).value, eol)
  }

  /** With no line break a text is one line. */
  lemma {:induction false} NoBreakCountMeansNoBreak(s: string)
    requires BreakCount(s) == 0
    ensures HasNoBreak(s)
  {
    if |s| > 0 {
      NoBreakCountMeansNoBreak(s[1..]);
      assert forall i :: 1 <= i < |s| ==> s[i] == s[1..][i - 1];
    }
  }

  /**
   * The license lines of lines 28-31: `None` when the list is empty when
   * `ensureBlankLastLine` reads it, that is, for a blank text with no line break.
   */
  function LicenseLines(prefix: string, text: string): (r: Option<seq<string>>)
    ensures r.None? <==> BreakCount(text) == 0 && IsBlank(text)
    ensures r.Some? ==> |r.value| > 0 && AllTrimmed(r.value)
  {
    var lines := GetLines(text);
    var stripped := StripLastLineIfBlank(lines).value;
    var prefixed := PrefixAll(prefix, stripped);
    StrippedEmptyIff(text);
    EnsureBlankLastLine(prefixed)
  }

  /** Stripping empties the license lines exactly for a blank text with no line break. */
  lemma StrippedEmptyIff(text: string)
    ensures DropBlankLast(GetLines(text)) == [] <==> BreakCount(text) == 0 && IsBlank(text)
  {
    if BreakCount(text) == 0 {
      NoBreakCountMeansNoBreak(text);
      GetLinesOfSingleLine(text);
    }
  }

  /** All the lines of the block, in order, before each is terminated by `eol`. */
  function BlockLines(startMarker: string, endMarker: string, prefix: string, text: string): seq<string>
  {
    DropBlankLast(TrimAll(GetLines(startMarker)))
    + DropBlankLast(PrefixAll(prefix, DropBlankLast(GetLines(text))))
    + DropBlankLast(TrimAll(GetLines(endMarker)))
  }

  /** Lines 17-32 once the markers are known to be strings, with `prefix` the text put before each license line. */
  function Construct(id: string, settings: TextSettings, defaultLicense: JsValue, eol: string, prefix: string)
    : (r: Result<TextAction, Error>)
    requires settings.startBlock.Str? && settings.endBlock.Str?
    ensures r.Success? ==>
              && r.value.base == ActionBase(id, defaultLicense, settings.license)
              && r.value.linePrefix == Coalesce(settings.linePrefix, Str(""))
              && r.value.startBlock == MarkerSegment(settings.startBlock.s, eol)
              && r.value.endBlock == MarkerSegment(settings.endBlock.s, eol)
    ensures r.Success? <==> GetLicense(ActionBase(id, defaultLicense, settings.license)).Str?
                            && !(BreakCount(GetLicense(ActionBase(id, defaultLicense, settings.license)).s) == 0
                                 && IsBlank(GetLicense(ActionBase(id, defaultLicense, settings.license)).s))
    ensures r.Failure? ==> r.error.TypeError?
  {
    var base := ActionBase(id, defaultLicense, settings.license);
    var startSegment := MarkerSegment(settings.startBlock.s, eol);
    var endSegment := MarkerSegment(settings.endBlock.s, eol);
    var text := GetLicense(base);
    if !text.Str? then
      Failure(TypeError("the license is not a string and has no split method"))
    else
      var lines := LicenseLines(prefix, text.s);
      if lines.None? then
        Failure(TypeError("ensureBlankLastLine reads the last line of an empty list"))
      else
        Success(TextAction(base, Coalesce(settings.linePrefix, Str("")), startSegment, endSegment,
                           startSegment + Join(lines.value, eol) + endSegment))
  }

  /** `init`, as written: line 30 puts the raw `actionSettings.linePrefix` before each license line. */
  function Init(id: string, settings: Option<TextSettings>, defaultLicense: JsValue, eol: string)
    : (r: Result<TextAction, Error>)
    ensures !MarkersAreStrings(settings) ==>
              r == Failure(ValidationError(ValidationMessage(id, ["startBlock", "endBlock"])))
    ensures MarkersAreStrings(settings) ==>
              r == Construct(id, settings.value, defaultLicense, eol, ToJsString(settings.value.linePrefix))
  {
    if !MarkersAreStrings(settings) then
      ThrowValidationError(ActionBase(id, defaultLicense, Undefined), ["startBlock", "endBlock"])
    else
      Construct(id, settings.value, defaultLicense, eol, ToJsString(settings.value.linePrefix))
  }

  /** `init` with the defaulted `this.linePrefix` of line 17 used on line 30. */
  function InitIntended(id: string, settings: Option<TextSettings>, defaultLicense: JsValue, eol: string)
    : (r: Result<TextAction, Error>)
    ensures !MarkersAreStrings(settings) ==>
              r == Failure(ValidationError(ValidationMessage(id, ["startBlock", "endBlock"])))
    ensures MarkersAreStrings(settings) ==>
              r == Construct(id, settings.value, defaultLicense, eol,
                             ToJsString(Coalesce(settings.value.linePrefix, Str(""))))
  {
    if !MarkersAreStrings(settings) then
      ThrowValidationError(ActionBase(id, defaultLicense, Undefined), ["startBlock", "endBlock"])
    else
      Construct(id, settings.value, defaultLicense, eol, ToJsString(Coalesce(settings.value.linePrefix, Str(""))))
  }

  // ---------------------------------------------------------------- properties

  /** The block is the start marker's, license and end marker's lines, each followed by `eol`. */
  lemma BlockShape(id: string, settings: TextSettings, defaultLicense: JsValue, eol: string, prefix: string)
    requires settings.startBlock.Str? && settings.endBlock.Str?
    requires Construct(id, settings, defaultLicense, eol, prefix).Success?
    ensures var a := Construct(id, settings, defaultLicense, eol, prefix).value;
            a.fullLicenseBlock
            == Terminate(BlockLines(settings.startBlock.s, settings.endBlock.s, prefix, GetLicense(a.base).s), eol)
  {
    var a := Construct(id, settings, defaultLicense, eol, prefix).value;
    var text := GetLicense(a.base).s;
    var stripped := DropBlankLast(GetLines(text));
    var prefixed := PrefixAll(prefix, stripped);
    assert LicenseLines(prefix, text) == EnsureBlankLastLine(prefixed);
    JoinEnsured(prefixed, eol);
    var s := DropBlankLast(TrimAll(GetLines(settings.startBlock.s)));
    var l := DropBlankLast(prefixed);
    var e := DropBlankLast(TrimAll(GetLines(settings.endBlock.s)));
    TerminateAppend(s, l, eol);
    TerminateAppend(s + l, e, eol);
  }

  /** Every line of the block has no trailing whitespace and, when the prefix has none, no line break. */
  lemma BlockLinesAreClean(startMarker: string, endMarker: string, prefix: string, text: string)
    ensures AllTrimmed(BlockLines(startMarker, endMarker, prefix, text))
    ensures HasNoBreak(prefix) ==> AllHaveNoBreak(BlockLines(startMarker, endMarker, prefix, text))
  {
    var s := TrimAll(GetLines(startMarker));
    var l := PrefixAll(prefix, DropBlankLast(GetLines(text)));
    var e := TrimAll(GetLines(endMarker));
    TrimmedLinesHaveNoBreak(GetLines(startMarker));
    TrimmedLinesHaveNoBreak(GetLines(endMarker));
    CleanConcat(DropBlankLast(s), DropBlankLast(l), DropBlankLast(e));
    if HasNoBreak(prefix) {
      PrefixedLinesHaveNoBreak(prefix, DropBlankLast(GetLines(text)));
    }
  }

  lemma CleanConcat(a: seq<string>, b: seq<string>, c: seq<string>)
    ensures AllTrimmed(a) && AllTrimmed(b) && AllTrimmed(c) ==> AllTrimmed(a + b + c)
    ensures AllHaveNoBreak(a) && AllHaveNoBreak(b) && AllHaveNoBreak(c) ==> AllHaveNoBreak(a + b + c)
  {
  }

  /**
   * Splitting the block again gives its lines back: with a prefix free of line
   * breaks, only the platform terminators separate lines in the block.
   */
  lemma BlockRoundTrip(id: string, settings: TextSettings, defaultLicense: JsValue, eol: string, prefix: string)
    requires settings.startBlock.Str? && settings.endBlock.Str?
    requires Construct(id, settings, defaultLicense, eol, prefix).Success?
    requires IsPlatformEol(eol) && HasNoBreak(prefix)
    ensures var a := Construct(id, settings, defaultLicense, eol, prefix).value;
            GetLines(a.fullLicenseBlock)
            == BlockLines(settings.startBlock.s, settings.endBlock.s, prefix, GetLicense(a.base).s) + [""]
  {
    var a := Construct(id, settings, defaultLicense, eol, prefix).value;
    BlockShape(id, settings, defaultLicense, eol, prefix);
    BlockLinesAreClean(settings.startBlock.s, settings.endBlock.s, prefix, GetLicense(a.base).s);
    GetLinesOfTerminate(BlockLines(settings.startBlock.s, settings.endBlock.s, prefix, GetLicense(a.base).s), eol);
  }

  /** Each marker segment is empty or ends with the terminator, and none of its lines has trailing whitespace. */
  lemma MarkerSegmentShape(marker: string, eol: string)
    requires eol != ""
    ensures var seg := MarkerSegment(marker, eol);
            seg == "" || (|eol| <= |seg| && seg[|seg| - |eol|..] == eol)
    ensures AllTrimmed(DropBlankLast(TrimAll(GetLines(marker))))
  {
    TerminateEmptyOrEndsWithEol(DropBlankLast(TrimAll(GetLines(marker))), eol);
    TrimmedLinesHaveNoBreak(GetLines(marker));
  }

  /** Settings missing, or a marker that is not a string, fail before any block is built. */
  lemma InitRejectsNonStringMarkers(id: string, settings: Option<TextSettings>, defaultLicense: JsValue, eol: string)
    requires settings.None? || !settings.value.startBlock.Str? || !settings.value.endBlock.Str?
    ensures Init(id, settings, defaultLicense, eol)
         == Failure(ValidationError("Action '" + id + "' expects properties 'startBlock', 'endBlock'"))
  {
    assert !MarkersAreStrings(settings);
    MarkerMessage(id);
  }

  lemma MarkerMessage(id: string)
    ensures ValidationMessage(id, ["startBlock", "endBlock"])
         == "Action '" + id + "' expects properties 'startBlock', 'endBlock'"
  {
    ValidationMessageTwoKeys(id, "startBlock", "endBlock");
    var tail := "' expects properties '" + "startBlock" + "', '" + "endBlock" + "'";
    assert tail == "' expects properties 'startBlock', 'endBlock'";
    Regroup("Action '" + id, "' expects properties '", "startBlock", "', '", "endBlock", "'");
  }

  /** Proof scaffolding: reassociates a six-part concatenation. */
  lemma Regroup(a: string, b: string, c: string, d: string, e: string, f: string)
    ensures a + b + c + d + e + f == a + (b + c + d + e + f)
  {
  }

  /** A blank license without a line break makes `init` throw. */
  lemma InitFailsOnBlankLicense(id: string, settings: TextSettings, defaultLicense: JsValue, eol: string)
    requires settings.startBlock.Str? && settings.endBlock.Str?
    requires GetLicense(ActionBase(id, defaultLicense, settings.license)) == Str("   ")
    ensures Init(id, Some(settings), defaultLicense, eol).Failure?
    ensures Init(id, Some(settings), defaultLicense, eol).error.TypeError?
  {
    var text := "   ";
    assert IsWhitespace(text[0]) && IsWhitespace(text[1]) && IsWhitespace(text[2]);
    BlankIffAllWhitespace(text);
    assert text[1..][1..][1..] == "";
    assert BreakCount(text) == 0;
    var prefix := ToJsString(settings.linePrefix);
    assert LicenseLines(prefix, text).None?;
    var r := Construct(id, settings, defaultLicense, eol, prefix);
    assert r == Failure(TypeError("ensureBlankLastLine reads the last line of an empty list"));
    assert MarkersAreStrings(Some(settings));
  }

  /** A license ending in two blank lines keeps one of them: only one is stripped. */
  lemma OnlyOneBlankLineStripped()
    ensures DropBlankLast(GetLines("MIT\n\n")) == ["MIT", ""]
  {
    assert "MIT\n\n" == "MIT" + "\n" + "\n";
    GetLinesOfTerminatedLine("MIT", "\n", "\n");
    assert "\n" == "" + "\n" + "";
    GetLinesOfTerminatedLine("", "\n", "");
    assert GetLines("") == [""];
    assert GetLines("MIT\n\n") == ["MIT", "", ""];
  }

  // ---------------------------------------------------------------- examples

  /** A one-line text that does not end in whitespace is its only, unchanged, line. */
  lemma PlainLine(line: string)
    requires HasNoBreak(line) && IsTrimmed(line) && line != ""
    ensures GetLines(line) == [line]
    ensures TrimAll(GetLines(line)) == [line]
    ensures DropBlankLast([line]) == [line]
    ensures BreakCount(line) == 0 && !IsBlank(line)
  {
    GetLinesOfSingleLine(line);
  }

  /**
   * One-line markers and a one-line license give three lines: start marker,
   * prefixed license line, end marker, each followed by the terminator.
   */
  lemma OneLineBlock(id: string, settings: TextSettings, defaultLicense: JsValue, eol: string, prefix: string)
    requires settings.startBlock.Str? && settings.endBlock.Str?
    requires var text := GetLicense(ActionBase(id, defaultLicense, settings.license));
             text.Str? && HasNoBreak(text.s) && IsTrimmed(text.s) && text.s != ""
    requires HasNoBreak(settings.startBlock.s) && IsTrimmed(settings.startBlock.s) && settings.startBlock.s != ""
    requires HasNoBreak(settings.endBlock.s) && IsTrimmed(settings.endBlock.s) && settings.endBlock.s != ""
    ensures Construct(id, settings, defaultLicense, eol, prefix).Success?
    ensures Construct(id, settings, defaultLicense, eol, prefix).value.fullLicenseBlock
         == settings.startBlock.s + eol
            + prefix + GetLicense(ActionBase(id, defaultLicense, settings.license)).s + eol
            + settings.endBlock.s + eol
  {
    var text := GetLicense(ActionBase(id, defaultLicense, settings.license)).s;
    var start := settings.startBlock.s;
    var end := settings.endBlock.s;
    PlainLine(start);
    PlainLine(end);
    PlainLine(text);
    var line := prefix + text;
    assert line[|line| - 1] == text[|text| - 1];
    assert TrimEnd(line) == line;
    assert DropBlankLast(GetLines(text)) == [text];
    assert PrefixAll(prefix, [text]) == [line];
    assert DropBlankLast([line]) == [line];
    BlockShape(id, settings, defaultLicense, eol, prefix);
    assert BlockLines(start, end, prefix, text) == [start] + [line] + [end];
    TerminateThree(start, prefix, text, end, eol);
  }

  lemma TerminateThree(a: string, prefix: string, text: string, c: string, eol: string)
    ensures Terminate([a, prefix + text, c], eol) == a + eol + prefix + text + eol + c + eol
  {
    var b := prefix + text;
    assert [a, b, c][1..] == [b, c];
    assert [b, c][1..] == [c];
    assert Terminate([c], eol) == c + eol;
    assert Terminate([a, b, c], eol) == a + eol + (b + eol + (c + eol));
    assert a + eol + (b + eol + (c + eol)) == a + eol + b + eol + c + eol;
  }

  /** The markers and license of the examples below are plain one-line texts. */
  lemma OneLineMarkers()
    ensures HasNoBreak("/*") && IsTrimmed("/*")
    ensures HasNoBreak(" */") && IsTrimmed(" */")
    ensures HasNoBreak("MIT") && IsTrimmed("MIT")
  {
    assert !IsWhitespace('*') && !IsWhitespace('/') && !IsWhitespace('T');
  }

  /** The C-style comment block: `/*`, ` * MIT`, ` */`, each on its own line, no blank line doubled. */
  lemma CommentBlockExample()
    ensures var settings := TextSettings(Str("/*"), Str(" */"), Str(" * "), Str("MIT"));
            Init("header", Some(settings), Undefined, "\n").Success?
            && Init("header", Some(settings), Undefined, "\n").value.fullLicenseBlock
               == "/*" + "\n" + " * " + "MIT" + "\n" + " */" + "\n"
  {
    var settings := TextSettings(Str("/*"), Str(" */"), Str(" * "), Str("MIT"));
    OneLineMarkers();
    OneLineBlock("header", settings, Undefined, "\n", " * ");
    var c := Construct("header", settings, Undefined, "\n", " * ");
    assert Init("header", Some(settings), Undefined, "\n") == c;
  }

  /** As written, settings without `linePrefix` put the text "undefined" before each license line. */
  lemma MissingPrefixWritesUndefined()
    ensures var settings := TextSettings(Str("/*"), Str(" */"), Undefined, Str("MIT"));
            Init("header", Some(settings), Undefined, "\n").Success?
            && Init("header", Some(settings), Undefined, "\n").value.fullLicenseBlock
               == "/*" + "\n" + "undefined" + "MIT" + "\n" + " */" + "\n"
  {
    var settings := TextSettings(Str("/*"), Str(" */"), Undefined, Str("MIT"));
    OneLineMarkers();
    OneLineBlock("header", settings, Undefined, "\n", "undefined");
    var c := Construct("header", settings, Undefined, "\n", "undefined");
    assert Init("header", Some(settings), Undefined, "\n") == c;
  }

  /** With the defaulted prefix, settings without `linePrefix` leave the license lines unprefixed. */
  lemma MissingPrefixIntended()
    ensures var settings := TextSettings(Str("/*"), Str(" */"), Undefined, Str("MIT"));
            InitIntended("header", Some(settings), Undefined, "\n").Success?
            && InitIntended("header", Some(settings), Undefined, "\n").value.fullLicenseBlock
               == "/*" + "\n" + "" + "MIT" + "\n" + " */" + "\n"
  {
    var settings := TextSettings(Str("/*"), Str(" */"), Undefined, Str("MIT"));
    OneLineMarkers();
    OneLineBlock("header", settings, Undefined, "\n", "");
    var c := Construct("header", settings, Undefined, "\n", "");
    assert InitIntended("header", Some(settings), Undefined, "\n") == c;
  }

  /**
   * The intended `init` builds a missing or null prefix as the empty prefix and
   * agrees with `init` as written whenever a prefix is given.
   */
  lemma InitIntendedDefaultsPrefix(id: string, settings: TextSettings, defaultLicense: JsValue, eol: string)
    requires settings.startBlock.Str? && settings.endBlock.Str?
    ensures InitIntended(id, Some(settings), defaultLicense, eol)
         == if settings.linePrefix.IsNullish() then Construct(id, settings, defaultLicense, eol, "")
            else Init(id, Some(settings), defaultLicense, eol)
  {
    if settings.linePrefix.IsNullish() {
      assert ToJsString(Coalesce(settings.linePrefix, Str(""))) == "";
    } else {
      assert Coalesce(settings.linePrefix, Str("")) == settings.linePrefix;
    }
  }
}

=== FILE: wrappers.dfy ===
/** Option and Result, the shapes every fallible operation of the model returns. */
module Wrappers {

  datatype Option<+T> = None | Some(value: T)

  /** `Failure` stands for a thrown JavaScript error. */
  datatype Result<+R, +E> = Success(value: R) | Failure(error: E)
}
